=== FILE: README.md ===
# Bug tracker front end: a Dafny model of its handlers

The system is a React single-page front end for a bug tracker backed by a
REST server. Most of the code issues axios calls, shows toasts and renders
JSX. Inside its event handlers sits a set of small decision rules and
form-state transitions. This project models those rules and proves what they
guarantee:

- **Sign-in and sign-up** (`Login`, `Register`):
  - the field checks;
  - the order of the `localStorage` writes relative to decoding the token;
  - the landing route of each role claim;
  - the normalised sign-up payload;
  - the two error-text chains.
- **The route table** (`Routes`): a path-to-page lookup with a catch-all.
- **The bearer-token probe** (`Auth`): the ordered search over five keys in
  two stores, which every CRUD screen copies.
- **The bug list** (`BugList`):
  - the pager window and its buttons;
  - the paged URL;
  - the create, edit and reset handlers of the bug form;
  - the rule that changing a filter or a sort goes back to page 0.
- **The notification screens** (`Notifications`):
  - the poll counter;
  - the full fetch;
  - the live-update toggle;
  - the fetch-by-id and fetch-by-user handlers;
  - the tester's create handler.
- **The report screen** (`Analytics`):
  - the per-format pie-chart histogram;
  - the download file name and its errors;
  - the form reset.
- **The CRUD screens for quality metrics, projects, attachments and users**
  (`Quality`, `Projects`, `Attachments`, `Users`):
  - the create and update checks;
  - the payload shapes;
  - the error classification;
  - the edit and reset transitions.

The model is built as follows:

- **Calls:** an HTTP call is an input, `Http.Exchange<T>`. It either resolved
  with a status and data, or failed as `Http.Failure`: a rejected status with
  a body, no response, or a thrown exception.
- **Storage:** browser storage is a pair of maps, held in the class
  `Auth.BrowserStorage` where the sign-in handler writes to it.
- **Screen state:** each screen's state is a class whose methods are the
  handlers. Each method states its whole new state and the request it
  dispatches.
- **Pure rules:** the rules the handlers apply are functions. The properties
  that relate them are lemmas.

The sign-in handler stores the access and refresh tokens before it decodes
the token. A failed decode therefore leaves both tokens stored and no user
name or role (`reactapp/src/Components/Login.jsx` lines 30-35), and every
screen's token probe then finds a token unless the access token was empty
(`Login.TokenWritesSignIn`).

## Model

| member | source | states |
|---|---|---|
| Js.TrimSpec | reactapp/src/Components/Register.jsx:25-28 | `trim()` never lengthens, leaves no white space at either end, and gives "" exactly for text made only of white space |
| Js.TrimIdempotent | reactapp/src/Components/Register.jsx:32-37 | trimming a trimmed text changes nothing |
| Js.MiddleSegment | reactapp/src/Components/Login.jsx:32 | `token.split(".")[1]` is undefined exactly when the token has no dot |
| Js.ThreePartMiddle | reactapp/src/Components/Login.jsx:32 | the middle segment of `header.payload.signature` is the payload |
| Js.NumberOfDecimal | reactapp/src/tester/TQuality.jsx:288-290 | `Number(n.toString())` gives back `n` for every integer |
| Http.ErrorTextFallback | reactapp/src/admin/User.jsx:95-97 | the "Unknown error occurred" text is reached only by an exception with an empty message; the shown text is empty only for an empty string body |
| Http.SearchBody | reactapp/src/tester/TNotification.jsx:149-157 | `data && data.includes(s)` throws exactly for an object body and is true exactly for a non-empty string body containing `s` |
| Auth.BrowserStorage.SetLocal | reactapp/src/Components/Login.jsx:30-35 | `localStorage.setItem` changes that one key and leaves session storage alone |
| Auth.FirstToken | reactapp/src/admin/Abug.jsx:28-40 | the first truthy item in key order; none exactly when every probed key is falsy |
| Auth.TokenFound | reactapp/src/admin/Abug.jsx:28-66 | a token is found exactly when some probed key is truthy in either store, and a truthy local key beats every session key |
| Auth.GetAuthHeaders | reactapp/src/admin/Abug.jsx:28-50 | the two probing loops give `"Bearer " + t` for the probe's token `t`, and null exactly when no key is truthy |
| Auth.CheckAuth | reactapp/src/admin/Abug.jsx:52-66 | the key-major loop (local, then session, per key) is true exactly when `getAuthHeaders` would give a header |
| Routes.PathOf | reactapp/src/App.js:43-77 | every explicit page has exactly one declared path starting with "/"; the catch-all page has none |
| Routes.EveryPageRoutable | reactapp/src/App.js:43-77 | every explicit page is reached by its declared path |
| Routes.DeclaredOnce | reactapp/src/App.js:43-77 | a path that reaches an explicit page is that page's declared path |
| Routes.PathsDistinct | reactapp/src/App.js:43-77 | two different paths never reach the same explicit page |
| Routes.Fallback | reactapp/src/App.js:79 | a path reaches `NotFoundPage` exactly when no page declares it |
| Routes.EntryPages | reactapp/src/App.js:43-76 | "/", "/login" and "/register" reach Home, Login and Register; "/notifications" reaches the admin's notification page, while "/notification" reaches the stakeholder's |
| Routes.Dashboards | reactapp/src/App.js:47-72 | the four role paths reach the four dashboards, and each dashboard's path reaches it |
| Login.TokenWritesSignIn | reactapp/src/Components/Login.jsx:30-31 | after the two token writes of a 200 reply, every screen's probe finds a token unless the access token was empty, even when the reply carried none; with no earlier key set, that token is the stored access token |
| Login.LandingRoute | reactapp/src/Components/Login.jsx:36-51 | ROLE_ADMIN, ROLE_DEVELOPER, ROLE_TESTER and ROLE_STAKEHOLDER go to their areas; any other claim, or none, goes to "/" |
| Login.LandingIsRealPage | reactapp/src/Components/Login.jsx:36-51 | every landing route reaches a real page: a dashboard for the four roles, the home page exactly for everything else |
| Login.LoginForm.HandleLogin | reactapp/src/Components/Login.jsx:14-76 | it checks the fields before any request and writes nothing when they are empty. On 200 it stores accessToken, then refreshToken, then decodes the token: with no token or a failed decode only the two tokens stay stored; otherwise it stores the untrimmed user name and the role and goes to the role's landing route. Another status writes nothing and reports invalid credentials. `loading` ends false |
| Register.Check | reactapp/src/Components/Register.jsx:20-28 | any empty field refuses with "fill all fields"; otherwise only a blank password refuses |
| Register.BlankPasswordRefused | reactapp/src/Components/Register.jsx:25-28 | with every field filled, the password check refuses exactly the passwords made only of white space |
| Register.MakePayload | reactapp/src/Components/Register.jsx:32-37 | user name, email and password trimmed, the password sent in plain text as `passwordHash`, the role prefixed with "ROLE_" |
| Register.PayloadNormalised | reactapp/src/Components/Register.jsx:32-37 | an accepted payload has a non-empty password with no white space at either end, and all three text fields are already trimmed |
| Register.RoleClaimRoutes | reactapp/src/Components/Register.jsx:113-116 | each of the four offered roles becomes a claim whose landing route is a dashboard |
| Register.BlankUsernameSent | reactapp/src/Components/Register.jsx:20-37 | for every input whose other fields pass, a non-empty user name made only of white space passes the checks and is sent as "" |
| Register.ChainsAgree | reactapp/src/Components/Register.jsx:58-67 | although the sign-up chain tests the body in the opposite order from sign-in, both compute the same message for every rejected or thrown call (the alerts put different symbols before it); the messages differ only when no response arrives |
| Register.RegisterForm.HandleRegister | reactapp/src/Components/Register.jsx:17-71 | a failed check sends nothing and changes nothing. Otherwise it sends the normalised payload; 200 or 201 clears the four fields and goes to "/login", a route that reaches the sign-in page; any other status reports failure and keeps the fields. `loading` ends false |
| BugList.Window | reactapp/src/admin/Abug.jsx:632-647 | the pager draws `min(5, totalPages)` buttons |
| BugList.WindowShape | reactapp/src/admin/Abug.jsx:632-647 | the buttons are consecutive pages from `max(0, min(cur-2, total-5))`, all below `totalPages`; the current page is among them when in range, and in the middle when two pages fit on either side |
| BugList.ControlsStayInRange | reactapp/src/admin/Abug.jsx:615-662 | from a page in range, every enabled control (First, Previous, a number, Next, Last) moves to a page in range |
| BugList.PageUrl | reactapp/src/admin/Abug.jsx:144-148 | the paged URL starts with `/api/bugs/paginated`, or with `/api/bugs/filter/priority/<p>` when a filter is set, and carries the query after it |
| BugList.FilterOnlyChangesPath | reactapp/src/admin/Abug.jsx:144-148 | both URLs carry the same page, size and sort query; a filtered URL never equals the unfiltered one |
| BugList.CreateError | reactapp/src/admin/Abug.jsx:106-111 | 403 means access denied; anything else shows "Error creating bug: " with the data or message |
| BugList.BugScreen.SetFilterPriority | reactapp/src/admin/Abug.jsx:508-511 | sets the filter, goes back to page 0, changes nothing else |
| BugList.BugScreen.SetSortBy | reactapp/src/admin/Abug.jsx:522-525 | sets the sort field, goes back to page 0, changes nothing else |
| BugList.BugScreen.SetSortDir | reactapp/src/admin/Abug.jsx:533-536 | sets the sort direction, goes back to page 0, changes nothing else |
| BugList.BugScreen.SetPageSize | reactapp/src/admin/Abug.jsx:546-549 | sets the page size, goes back to page 0, changes nothing else |
| BugList.BugScreen.SetUsePagination | reactapp/src/admin/Abug.jsx:499-501 | toggles paged mode and keeps the current page |
| BugList.BugScreen.Press | reactapp/src/admin/Abug.jsx:615-662 | pressing an enabled control of the drawn pager moves to its target page, which stays in range |
| BugList.BugScreen.CreateBug | reactapp/src/admin/Abug.jsx:80-113 | it probes for a token first and refuses an empty title or a falsy project id (text "" or the number 0) before any request. It posts to `/api/bugs/add` with the token and `Number(projectId)`; success resets the form (priority MEDIUM), a failure keeps it. Paging state and the selection are untouched |
| BugList.EditThenCreate | reactapp/src/admin/Abug.jsx:248-256 | after editing a bug, create accepts exactly when the bug has a title and a non-zero project id (its own, else its project's), and sends that id with the bug's title, description and priority |
| BugList.BugScreen.HandleEdit | reactapp/src/admin/Abug.jsx:248-256 | selects the bug and fills the form from it, the project id as a number; the list controls stay |
| BugList.BugScreen.ResetForm | reactapp/src/admin/Abug.jsx:258-262 | ends the edit, clears the form (priority MEDIUM) and reports the reset; the list controls stay |
| Forms.NumberRoundTrip | reactapp/src/tester/TQuality.jsx:285-294 | a number copied into a field, as itself or as its text, reads back as that number |
| Notifications.PollStep | reactapp/src/tester/TNotification.jsx:81-101 | with no token or a failed call nothing changes. A successful poll sets the count to the fetched length. It announces, and replaces the list, exactly when the screen is initialised, the last count was positive and the list grew; the number announced is the growth, at least 1 |
| Notifications.ArrivalText | reactapp/src/tester/TNotification.jsx:93 | the noun is plural exactly when more than one notification arrived |
| Notifications.AnnouncedCount | reactapp/src/tester/TNotification.jsx:91-95 | an announced count is at least 1, and the text is singular exactly for 1 |
| Notifications.PollIdempotent | reactapp/src/stakeholder/SNotification.jsx:72-92 | polling again with the same reply changes nothing and announces nothing |
| Notifications.SilentPolls | reactapp/src/stakeholder/SNotification.jsx:82-86 | before the first full fetch, or after an empty list, no poll announces anything |
| Notifications.FetchThenPoll | reactapp/src/stakeholder/SNotification.jsx:72-105 | after a full fetch of a non-empty list, a poll announces exactly the growth of the list and shows the new list |
| Notifications.PausedTicksIdle | reactapp/src/tester/TNotification.jsx:71-75 | with live updates off, any run of ticks leaves the state as it is |
| Notifications.Ticks | reactapp/src/tester/TNotification.jsx:71-75 | a run of ticks never changes the live-update setting or the initialised flag |
| Notifications.FetchError | reactapp/src/stakeholder/SNotification.jsx:109-118 | 403 means access denied; anything else shows the screen's prefix and the fallback text |
| Notifications.NotificationFeed.Poll | reactapp/src/stakeholder/SNotification.jsx:42-92 | the handler's new state and announcement are those of `PollStep`; with no token stored it shows the login notice, and otherwise no notice |
| Notifications.NotificationFeed.Tick | reactapp/src/stakeholder/SNotification.jsx:42-73 | the interval callback's new state and announcement are those of `TickStep`; a tick of a live screen with no token stored shows the login notice, and every other tick shows none |
| Notifications.NotificationFeed.TogglePolling | reactapp/src/stakeholder/SNotification.jsx:320 | the button negates the live-update setting and changes nothing else |
| Notifications.NotificationFeed.FetchAll | reactapp/src/stakeholder/SNotification.jsx:95-119 | the new state is that of `FetchStep`; a success reports the fetched count when called to show a message (the list button) and nothing when called silently (on mount, after a save); a failure shows the fetch error |
| Notifications.NotificationFeed.FetchById | reactapp/src/stakeholder/SNotification.jsx:122-149 | an empty id is refused before any request; success shows the one notification; 404 names the missing id; the counter state is untouched |
| Notifications.NotificationFeed.FetchByUser | reactapp/src/stakeholder/SNotification.jsx:152-177 | an empty user id is refused before any request; success shows that user's list; the counter state is untouched |
| Notifications.CheckCreate | reactapp/src/tester/TNotification.jsx:115-124 | a falsy user id, type or message is refused as missing; the rest pass exactly when the user id reads as a positive number |
| Notifications.MakePayload | reactapp/src/tester/TNotification.jsx:130-139 | type and message trimmed, `isRead` as set, `createdDate` present exactly when non-empty |
| Notifications.CreateError | reactapp/src/tester/TNotification.jsx:146-165 | 403 first. On 400 a missing user or `user_id` beats "constraint", and anything else is invalid data. On 500 a string or null body is the constraint error exactly when it names the constraint exception, and otherwise the fallback text. An object body on 400 or 500 makes the search throw out of the handler |
| Notifications.UserMissingFirst | reactapp/src/tester/TNotification.jsx:149-159 | a 400 body naming `user_id` is a missing user, even when it names a constraint too; a 500 naming the constraint exception is reported as such |
| Notifications.NotificationForm.Create | reactapp/src/tester/TNotification.jsx:112-167 | it probes for a token, then checks the fields, then posts the payload; success clears the form; a failure keeps it and shows `CreateError` |
| Analytics.Color | reactapp/src/developer/DAnalytics.jsx:109-119 | the violet fallback colour is used exactly for formats outside PDF, Excel, CSV and Unknown |
| Analytics.FormatsSpec | reactapp/src/developer/DAnalytics.jsx:103-107 | the counted formats are distinct and are exactly the formats that occur |
| Analytics.ValuesSumToCount | reactapp/src/developer/DAnalytics.jsx:103-120 | the slice values add up to the number of reports |
| Analytics.ChartSpec | reactapp/src/developer/DAnalytics.jsx:97-123 | no reports draws the single grey "No Reports" slice worth 1. Otherwise there is one slice per distinct format, named `<format> Reports` and coloured from the table; each is worth at least 1 and together they are worth the report count |
| Analytics.MissingFormatIsUnknown | reactapp/src/developer/DAnalytics.jsx:103-114 | a report without a format adds one to "Unknown", exactly as a report of format "Unknown" does, and is drawn grey |
| Analytics.Tally | reactapp/src/developer/DAnalytics.jsx:103-107 | the counting loop builds one key per format in first-occurrence order, each mapped to its number of reports |
| Analytics.ReportScreen.GenerateChartData | reactapp/src/developer/DAnalytics.jsx:97-123 | the chart drawn is `Chart(reports)`, the histogram `ChartSpec` describes; nothing else changes |
| Analytics.DefaultFilenameNamesReport | reactapp/src/developer/DAnalytics.jsx:188 | the default name is `report_` + id + `.txt`, and its middle reads back as the report id |
| Analytics.DownloadError | reactapp/src/developer/DAnalytics.jsx:211-219 | 404 is "report not found", 403 is "access denied", and every other failure is the generic message |
| Analytics.Download | reactapp/src/developer/DAnalytics.jsx:176-220 | with no token nothing is saved; a resolved call saves under `Filename`; a failed one shows `DownloadError` |
| Analytics.ReportScreen.ResetForm | reactapp/src/developer/DAnalytics.jsx:222-227 | clears the five form fields, the report being edited and the selected id, and reports the reset; the list and the chart stay |
| Quality.CheckCreate | reactapp/src/tester/TQuality.jsx:84-98 | any falsy required field refuses as missing. The rest pass exactly when the project id is a positive number and the counts and score are numbers that are not negative; the accepted values are those numbers |
| Quality.CheckUpdate | reactapp/src/tester/TQuality.jsx:221-224 | passes exactly when a metric is selected and the four required fields are truthy |
| Quality.UpdateAcceptsWhatCreateAccepts | reactapp/src/tester/TQuality.jsx:104-113 | whatever create accepts, update accepts too and sends the same body |
| Quality.UpdateSkipsRangeChecks | reactapp/src/tester/TQuality.jsx:229-235 | update sends a negative project id and a non-numeric count (as null), which create refuses |
| Quality.EditThenUpdate | reactapp/src/tester/TQuality.jsx:285-294 | saving an edited metric unchanged sends its own values back; update refuses exactly the metrics with no project or project 0 |
| Quality.CreateError | reactapp/src/tester/TQuality.jsx:120-130 | 403 first; then a 400, or a body mentioning "Project not found", names the project; anything else shows the fallback text. An object body with another status throws out of the handler |
| Quality.ProjectNotFoundAnyStatus | reactapp/src/tester/TQuality.jsx:123-124 | a body mentioning the missing project is reported as such under any status except 403 |
| Quality.UpdateError | reactapp/src/tester/TQuality.jsx:247-255 | 403 means access denied; anything else shows "Error updating quality: " with the fallback text |
| Quality.QualityScreen.Create | reactapp/src/tester/TQuality.jsx:81-132 | it probes, checks, then posts the checked numbers. Success clears the five fields and keeps the selection; a failure keeps the form |
| Quality.QualityScreen.Update | reactapp/src/tester/TQuality.jsx:218-257 | it probes, checks, then puts to the metric's path. Success ends the edit and clears the form |
| Quality.QualityScreen.HandleEdit | reactapp/src/tester/TQuality.jsx:285-294 | selects the metric and fills the form from it |
| Quality.QualityScreen.ResetForm | reactapp/src/tester/TQuality.jsx:296-300 | ends the edit, clears the five fields and reports the reset |
| Projects.CheckCreate | reactapp/src/admin/AProject.jsx:82-91 | an empty name or falsy manager id refuses as missing; the rest pass exactly when the manager id is a positive number |
| Forms.Given | reactapp/src/admin/AProject.jsx:102-107 | an optional text field (a project's dates, a metric's or a notification's date) is sent exactly when non-empty, and then as typed |
| Projects.CheckUpdate | reactapp/src/admin/AProject.jsx:218-221 | passes exactly when a project is selected and name and manager id are truthy |
| Projects.NameTrimmedOnlyOnCreate | reactapp/src/admin/AProject.jsx:97-108 | for an accepted form, the create body trims the name and the update body does not. The name is empty exactly when it was all blanks; manager id and dates agree |
| Projects.EditThenUpdate | reactapp/src/admin/AProject.jsx:277-285 | saving an edited project unchanged sends it back; update refuses exactly a project with no name, no manager or manager 0 |
| Projects.CreateError | reactapp/src/admin/AProject.jsx:115-127 | 403 first; then a 400 or "Manager not found" names the manager; then "constraint"; then the fallback text. An object body with another status throws out of the handler |
| Projects.ManagerBeforeConstraint | reactapp/src/admin/AProject.jsx:118-121 | a body mentioning both a constraint and the missing manager is reported as the missing manager |
| Projects.UpdateError | reactapp/src/admin/AProject.jsx:239-247 | 403 means access denied; anything else shows "Error updating project: " with the fallback text |
| Projects.ProjectScreen.Create | reactapp/src/admin/AProject.jsx:79-129 | it probes, checks, then posts to `/add` with the trimmed name and only the dates that are set. Success clears the form |
| Projects.ProjectScreen.Update | reactapp/src/admin/AProject.jsx:215-249 | it probes, checks, then puts to `/update` with the project id, the untrimmed name and null for empty dates. Success ends the edit and clears the form |
| Projects.ProjectScreen.HandleEdit | reactapp/src/admin/AProject.jsx:277-285 | selects the project and fills the form from it |
| Projects.ProjectScreen.ResetForm | reactapp/src/admin/AProject.jsx:287-291 | ends the edit, clears the four fields and reports the reset |
| Attachments.CheckCreate | reactapp/src/developer/DBugAttachment.jsx:97-105 | an empty bug id or uploader refuses first; then it refuses exactly when there is neither a chosen file nor a file name |
| Attachments.CreateRequest | reactapp/src/developer/DBugAttachment.jsx:113-135 | a chosen file gives a multipart upload to `/<bugId>` carrying only the file and the uploader. Otherwise it sends a JSON entry to the collection with numeric bug id and size and the other fields as typed |
| Attachments.ChooseThenCancel | reactapp/src/developer/DBugAttachment.jsx:79-135 | after choosing a file and then cancelling the picker, create sends the file's details as a manual entry, with the file's own size |
| Attachments.CreateError | reactapp/src/developer/DBugAttachment.jsx:140-149 | 403 means access denied; anything else shows "Error creating attachment: " with the fallback text |
| Attachments.AttachmentScreen.HandleFileChange | reactapp/src/developer/DBugAttachment.jsx:79-91 | the selection becomes the picked file. A file sets name, type, size as text and `uploads/<name>` and keeps bug id and uploader; no file leaves the form alone |
| Attachments.AttachmentScreen.Create | reactapp/src/developer/DBugAttachment.jsx:94-151 | it probes, checks, then sends `CreateRequest`; success clears the six fields and the selection |
| Attachments.AttachmentScreen.ResetForm | reactapp/src/developer/DBugAttachment.jsx:234-239 | clears the edit, the six fields and the selection, and reports the reset |
| Users.CheckCreate | reactapp/src/admin/User.jsx:72-75 | passes exactly when user name, email and password are all set |
| Users.CheckUpdate | reactapp/src/admin/User.jsx:162-165 | passes exactly when a user is selected and user name and email are set; the password may be empty |
| Users.EditThenSave | reactapp/src/admin/User.jsx:220-228 | an edited user cannot be created again (no password) but saves whenever name and email are set, sending an empty password |
| Users.UpdateAcceptsWhatCreateAccepts | reactapp/src/admin/User.jsx:159-165 | whatever create accepts, update accepts once a user is selected |
| Users.ClearedRoleNotOffered | reactapp/src/admin/User.jsx:13-367 | the cleared form's "ROLE_USER" is not an offered role, while the initial "ROLE_ADMIN" is; signing in with "ROLE_USER" lands on the home page |
| Users.CreateError | reactapp/src/admin/User.jsx:91-98 | 403 means admins only; anything else shows "Error creating user: " with the fallback text |
| Users.UpdateError | reactapp/src/admin/User.jsx:182-190 | 403 means admins only; anything else shows "Error updating user: " with the fallback text |
| Users.UserScreen.Create | reactapp/src/admin/User.jsx:69-101 | it probes, checks, then posts the four fields. Success clears the form with role "ROLE_USER"; a failure keeps it |
| Users.UserScreen.Update | reactapp/src/admin/User.jsx:159-192 | it probes, checks, then puts to the user's path. Success ends the edit and clears the form with role "ROLE_USER" |
| Users.UserScreen.HandleEdit | reactapp/src/admin/User.jsx:220-228 | selects the user and fills the form with its name, email and role and an empty password |
| Users.UserScreen.ResetForm | reactapp/src/admin/User.jsx:230-234 | ends the edit, clears the form with role "ROLE_USER" and reports the reset |

The lemmas above are about these definitions, which carry no row of their
own: `Routes.Resolve` (App.js:43-79), `Analytics.Chart`
(DAnalytics.jsx:97-123), `Quality.CreatePayload` (TQuality.jsx:104-113),
`Quality.UpdatePayload` (TQuality.jsx:230-239), `Projects.MakeCreateBody`
(AProject.jsx:97-108), `Projects.MakeUpdateBody` (AProject.jsx:227-233),
`Login.FailureText` (Login.jsx:58-72) and `Register.FailureText`
(Register.jsx:58-67).

## Left out

- Network I/O, the hard-coded backend host, multipart `FormData` encoding and
  the Blob/URL plumbing of downloads. Responses are inputs; requests are
  returned as values (verb, path below the host, authorization header, body).
- Timers and component lifecycle:
  - the five-second interval itself;
  - the `useEffect` re-runs and cleanup;
  - the delayed message clearing;
  - stale-closure capture.
  
  A tick is modelled as one call of `TickStep`.
- The ordering of concurrent requests and `await` interleavings. Each handler
  runs to completion against one settled reply.
- The list re-fetch that follows each successful create or update. On the
  tester's notification screen a successful `NotificationForm.Create` is
  followed by `NotificationFeed.FetchAll` with `showMessage` false, so its
  effect on the feed is `FetchStep` applied to that re-fetch's reply; the
  model states the two steps separately and does not chain them. On the
  other screens the re-fetch only replaces the displayed list, which these
  rules do not hold.
- The delete, fetch-by-id and list handlers of the bug, quality, project,
  attachment, user and report screens, and the bug screen's update.
  They are thin wrappers around one call with a 403 check and the same
  fallback text.
- The tester notification screen's update, delete, edit and reset. They
  follow the same pattern as its create.
- The SHA-256 helper in `hashUtils.js`. It is a foreign library call, and the
  sign-up screen never calls it.
- `atob` and `JSON.parse` of the token's middle segment. They are a function
  parameter that may fail (`Login.Decoded`).
- `formatFileSize`, which uses floating-point logarithms.
- The content-disposition regular expression. The name it captures is an
  input; only the default name is modelled.
- Js.Number: reads decimal integer literals only (surrounding white space
  ignored, optional sign). Fractions, exponents, hexadecimal and `Infinity`
  read as NaN. Quality.CheckCreate therefore refuses a fractional quality
  score such as "87.5", which the screen accepts.
- The emoji that the sign-in and sign-up alerts put before a message. Only the
  message text is modelled.
- Toast texts are modelled as notice values rather than strings, except
  where a text is computed from the reply. `alert`, `window.confirm`, JSX,
  styles and charts rendering are left out.
- The dashboards, `Home.jsx`, `NotFoundPage.jsx` and `SQuality.jsx`. They are
  pure UI, or fetch wrappers around the token probe modelled once in `Auth`.
- Route matching details of the router. Paths are matched exactly; case
  folding and trailing slashes are not modelled.
- Object key order: the chart keeps formats in first-occurrence order. A
  format that looks like an array index would be ordered first by
  JavaScript. A format naming an `Object.prototype` member (such as
  "constructor") would read a prototype property in the colour table. Neither
  is modelled.

=== FILE: analytics.dfy ===
/** The developer's report screen: the pie chart of reports per format, the
    download file name and errors, and the form reset. */
module Analytics {
  import opened Js
  import opened Http

  /** A report as the chart sees it; a missing format is the empty string. */
  datatype Report = Report(reportId: int, format: string)

  /** One slice of the pie chart. */
  datatype Slice = Slice(name: string, value: int, color: string)

  const NoReports := Slice("No Reports", 1, "#e5e7eb")

  /** `report.format || 'Unknown'` */
  function Label(format: string): (k: string)
    ensures k != ""
    ensures format != "" ==> k == format
  {
    if format == "" then "Unknown" else format
  }

  /** The colour of a format's slice: fixed for PDF, Excel, CSV and Unknown,
      violet for any other format. */
  function Color(k: string): (c: string)
    ensures k !in {"PDF", "Excel", "CSV", "Unknown"} <==> c == "#8b5cf6"
  {
    if k == "PDF" then "#dc2626"
    else if k == "Excel" then "#059669"
    else if k == "CSV" then "#2563eb"
    else if k == "Unknown" then "#6b7280"
    else "#8b5cf6"
  }

  /** How many of the reports are counted under `k`. */
  function Occurrences(rs: seq<Report>, k: string): (n: nat)
    ensures n <= |rs|
  {
    if rs == [] then 0
    else Occurrences(rs[..|rs| - 1], k) + (if Label(rs[|rs| - 1].format) == k then 1 else 0)
  }

  /** The counted formats in the order they first occur (the order in which the
      counting object gains its keys). */
  function Formats(rs: seq<Report>): (ks: seq<string>)
  {
    if rs == [] then []
    else
      var ks := Formats(rs[..|rs| - 1]);
      var k := Label(rs[|rs| - 1].format);
      if k in ks then ks else ks + [k]
  }

  /** The slice of format `k`. */
  function Entry(rs: seq<Report>, k: string): Slice {
    Slice(k + " Reports", Occurrences(rs, k), Color(k))
  }

  /** The slices of the formats `ks`, in that order. */
  function Entries(rs: seq<Report>, ks: seq<string>): (es: seq<Slice>)
    ensures |es| == |ks|
    ensures forall i :: 0 <= i < |ks| ==> es[i] == Entry(rs, ks[i])
  {
    if ks == [] then [] else Entries(rs, ks[..|ks| - 1]) + [Entry(rs, ks[|ks| - 1])]
  }

  /** The chart drawn for a list of reports. */
  function Chart(rs: seq<Report>): seq<Slice> {
    if rs == [] then [NoReports] else Entries(rs, Formats(rs))
  }

  predicate Distinct(ks: seq<string>) {
    forall i, j :: 0 <= i < j < |ks| ==> ks[i] != ks[j]
  }

  function ValueSum(es: seq<Slice>): int {
    if es == [] then 0 else ValueSum(es[..|es| - 1]) + es[|es| - 1].value
  }

  /** Each format is listed once, exactly the formats that occur are listed, and
      each listed format occurs at least once. */
  lemma {:induction false} FormatsSpec(rs: seq<Report>)
    ensures Distinct(Formats(rs))
    ensures forall k :: k in Formats(rs) <==> Occurrences(rs, k) > 0
  {
    if rs != [] {
      FormatsSpec(rs[..|rs| - 1]);
    }
  }

  /** Counting one more report adds one to the total over any list of distinct
      formats that includes its label, and nothing otherwise. */
  lemma {:induction false} SumAfterOneMore(rs: seq<Report>, r: Report, ks: seq<string>)
    requires Distinct(ks)
    ensures ValueSum(Entries(rs + [r], ks)) ==
              ValueSum(Entries(rs, ks)) + (if Label(r.format) in ks then 1 else 0)
  {
    var rs' := rs + [r];
    assert rs'[..|rs'| - 1] == rs;
    if ks != [] {
      var init := ks[..|ks| - 1];
      SumAfterOneMore(rs, r, init);
      assert Entries(rs', ks)[..|ks| - 1] == Entries(rs', init);
      assert Entries(rs, ks)[..|ks| - 1] == Entries(rs, init);
      assert Label(r.format) in ks <==> Label(r.format) in init || Label(r.format) == ks[|ks| - 1];
    }
  }

  /** The slice values add up to the number of reports. */
  lemma {:induction false} ValuesSumToCount(rs: seq<Report>)
    ensures ValueSum(Entries(rs, Formats(rs))) == |rs|
  {
    if rs != [] {
      var init := rs[..|rs| - 1];
      var r := rs[|rs| - 1];
      assert rs == init + [r];
      ValuesSumToCount(init);
      FormatsSpec(init);
      SumAfterOneMore(init, r, Formats(init));
      var ks := Formats(init);
      var k := Label(r.format);
      if k !in ks {
        FormatsSpec(rs);
        assert Formats(rs) == ks + [k];
        assert Entries(rs, ks + [k])[..|ks|] == Entries(rs, ks);
        assert Occurrences(init, k) == 0;
        assert Occurrences(rs, k) == 1;
      }
    }
  }

  /** An empty list draws the single grey "No Reports" slice; otherwise there is
      one slice per distinct format, named after it, each worth at least one
      report, and the values add up to the number of reports. */
  lemma ChartSpec(rs: seq<Report>)
    ensures rs == [] ==> Chart(rs) == [NoReports]
    ensures rs != [] ==> |Chart(rs)| == |Formats(rs)| && Distinct(Formats(rs))
    ensures rs != [] ==> forall i :: 0 <= i < |Chart(rs)| ==>
              Chart(rs)[i].name == Formats(rs)[i] + " Reports" && Chart(rs)[i].value >= 1
              && Chart(rs)[i].color == Color(Formats(rs)[i])
    ensures rs != [] ==> ValueSum(Chart(rs)) == |rs|
  {
    if rs != [] {
      FormatsSpec(rs);
      ValuesSumToCount(rs);
    }
  }

  /** A report with no format is counted under "Unknown", grey, together with
      any report whose format is literally "Unknown". */
  lemma {:induction false} MissingFormatIsUnknown(rs: seq<Report>, id: int)
    ensures Occurrences(rs + [Report(id, "")], "Unknown") == Occurrences(rs, "Unknown") + 1
    ensures Occurrences(rs + [Report(id, "")], "Unknown") == Occurrences(rs + [Report(id, "Unknown")], "Unknown")
    ensures Color(Label("")) == "#6b7280"
  {
    assert (rs + [Report(id, "")])[..|rs|] == rs;
    assert (rs + [Report(id, "Unknown")])[..|rs|] == rs;
  }

  /** Counting the report at index `i` on top of those before it. */
  lemma {:induction false} TallyStep(rs: seq<Report>, i: int)
    requires 0 <= i < |rs|
    ensures var k := Label(rs[i].format);
      Formats(rs[..i + 1]) == (if k in Formats(rs[..i]) then Formats(rs[..i]) else Formats(rs[..i]) + [k])
      && (forall q :: Occurrences(rs[..i + 1], q) == Occurrences(rs[..i], q) + (if q == k then 1 else 0))
      && (forall q :: q in Formats(rs[..i]) <==> Occurrences(rs[..i], q) > 0)
  {
    assert rs[..i + 1][..i] == rs[..i];
    FormatsSpec(rs[..i]);
  }

  /** The counting pass of `generateChartData`: one key per format in
      first-occurrence order, each mapped to its number of reports. */
  method Tally(rs: seq<Report>) returns (counts: map<string, int>, keys: seq<string>)
    ensures keys == Formats(rs)
    ensures forall k :: k in counts <==> k in keys
    ensures forall k :: k in counts ==> counts[k] == Occurrences(rs, k)
  {
    counts, keys := map[], [];
    var i := 0;
    while i < |rs|
      invariant 0 <= i <= |rs|
      invariant keys == Formats(rs[..i])
      invariant forall k :: k in counts <==> k in keys
      invariant forall k :: k in counts ==> counts[k] == Occurrences(rs[..i], k)
    {
      var k := Label(rs[i].format);
      TallyStep(rs, i);
      if k in counts {
        counts := counts[k := counts[k] + 1];
      } else {
        counts := counts[k := 1];
        keys := keys + [k];
      }
      i := i + 1;
    }
    assert rs[..i] == rs;
  }

  /** The file name a download is saved under: the name the server's
      content-disposition header gives, when the header is present and names
      one, else `report_<id>.txt`. */
  function Filename(reportId: int, disposition: string, named: Option<string>): (name: string)
    ensures disposition == "" || named.None? ==> name == "report_" + Decimal(reportId) + ".txt"
    ensures disposition != "" && named.Some? ==> name == named.value
  {
    if disposition != "" && named.Some? then named.value else "report_" + Decimal(reportId) + ".txt"
  }

  /** The default name carries the report's id, which reads back as that id. */
  lemma {:induction false} DefaultFilenameNamesReport(reportId: int)
    ensures var name := Filename(reportId, "", None);
      |name| > 11 && name[..7] == "report_" && name[|name| - 4..] == ".txt"
      && Number(name[7..|name| - 4]) == Some(reportId)
  {
    var name := Filename(reportId, "", None);
    var d := Decimal(reportId);
    assert name == "report_" + d + ".txt";
    assert name[7..|name| - 4] == d;
    NumberOfDecimal(reportId);
  }

  /** What the report screen tells the user. */
  datatype ReportNotice = LoginRequired | Downloaded | ReportNotFound | DownloadDenied | DownloadFailed | FormReset

  /** The message of a failed download: 404 first, then 403, else a generic
      failure (the response body is never shown). */
  function DownloadError(f: Failure): (n: ReportNotice)
    ensures StatusOf(f) == Some(404) <==> n == ReportNotFound
    ensures StatusOf(f) == Some(403) <==> n == DownloadDenied
    ensures StatusOf(f) !in {Some(403), Some(404)} <==> n == DownloadFailed
  {
    if StatusOf(f) == Some(404) then ReportNotFound
    else if StatusOf(f) == Some(403) then DownloadDenied
    else DownloadFailed
  }

  /** The headers of a download response: the content-disposition text, and the
      file name its `filename=` parameter gives, if any. */
  datatype Disposition = Disposition(header: string, named: Option<string>)

  /** `downloadReport`: the file saved, if any, and the notice shown. */
  function Download(signedIn: bool, reportId: int, reply: Exchange<Disposition>): (r: (Option<string>, ReportNotice))
    ensures !signedIn ==> r == (None, LoginRequired)
    ensures signedIn && reply.Ok? ==>
              r == (Some(Filename(reportId, reply.data.header, reply.data.named)), Downloaded)
    ensures signedIn && reply.Failed? ==> r == (None, DownloadError(reply.failure))
  {
    if !signedIn then (None, LoginRequired)
    else match reply
      case Ok(_, d) => (Some(Filename(reportId, d.header, d.named)), Downloaded)
      case Failed(f) => (None, DownloadError(f))
  }

  /** The report screen's state. */
  class ReportScreen {
    var reports: seq<Report>
    var chartData: seq<Slice>
    var kind: string
    var parameters: string
    var generatedBy: string
    var reportUrl: string
    var format: string
    var editingReport: Option<int>
    var selectedReportId: string

    constructor ()
      ensures reports == [] && chartData == [] && editingReport.None? && selectedReportId == ""
      ensures kind == "" && parameters == "" && generatedBy == "" && reportUrl == "" && format == ""
    {
      reports, chartData := [], [];
      kind, parameters, generatedBy, reportUrl, format := "", "", "", "", "";
      editingReport, selectedReportId := None, "";
    }

    /** `generateChartData`: counts the reports per format into an object (keys
        in first-occurrence order), then turns each key into a slice. */
    method GenerateChartData()
      modifies this
      ensures chartData == Chart(reports)
      ensures reports == old(reports) && editingReport == old(editingReport)
      ensures selectedReportId == old(selectedReportId)
      ensures kind == old(kind) && parameters == old(parameters) && generatedBy == old(generatedBy)
      ensures reportUrl == old(reportUrl) && format == old(format)
    {
      if |reports| == 0 {
        chartData := [NoReports];
        return;
      }
      var counts, keys := Tally(reports);
      var data: seq<Slice> := [];
      var j := 0;
      while j < |keys|
        invariant 0 <= j <= |keys|
        invariant data == Entries(reports, keys[..j])
      {
        assert keys[..j + 1][..j] == keys[..j];
        data := data + [Slice(keys[j] + " Reports", counts[keys[j]], Color(keys[j]))];
        j := j + 1;
      }
      assert keys[..j] == keys;
      chartData := data;
    }

    /** `resetForm`: clears the five form fields, the report being edited and
        the selected id, and says so; the list and the chart stay. */
    method ResetForm() returns (notice: ReportNotice)
      modifies this
      ensures notice == FormReset
      ensures kind == "" && parameters == "" && generatedBy == "" && reportUrl == "" && format == ""
      ensures editingReport.None? && selectedReportId == ""
      ensures reports == old(reports) && chartData == old(chartData)
    {
      kind, parameters, generatedBy, reportUrl, format := "", "", "", "", "";
      editingReport := None;
      selectedReportId := "";
      notice := FormReset;
    }
  }
}

=== FILE: attachments.dfy ===
/** The developer's attachment screen: choosing a file, the create checks, the
    choice between a file upload and a manual entry, and the clearing
    transitions. */
module Attachments {
  import opened Js
  import opened Http
  import opened Auth

  const AttachmentsPath := "/api/bugattachments"

  /** A file picked in the browser: its name, MIME type and size in bytes. */
  datatype File = File(name: string, mimeType: string, size: nat)

  /** The form: six text fields. */
  datatype AttachmentFields = AttachmentFields(fileName: string, filePath: string, uploadedBy: string,
                                               fileType: string, fileSize: string, bugId: string)

  const BlankForm := AttachmentFields("", "", "", "", "", "")

  /** The body of a create request: a multipart upload of the file and the
      uploader, or a manual JSON entry whose number fields are `None` when they
      read as NaN (sent as null). */
  datatype AttachmentBody =
    | Multipart(file: File, uploadedBy: string)
    | Manual(bugId: Option<int>, fileName: string, filePath: string, uploadedBy: string, fileType: string,
             fileSize: Option<int>)

  datatype AttachmentNotice =
    | FormReset
    | LoginRequired
    | BugAndUploaderRequired
    | FileRequired
    | AttachmentAdded
    | CreateDenied
    | CreateFailed(text: string)

  /** The form after a file is chosen: name, type, size as text and an
      `uploads/` path taken from the file; bug id and uploader kept. */
  function Chosen(form: AttachmentFields, file: File): (r: AttachmentFields) {
    form.(fileName := file.name, fileType := file.mimeType, fileSize := Decimal(file.size),
          filePath := "uploads/" + file.name)
  }

  /** The checks before a create request: bug id and uploader must be set, and
      there must be a chosen file or at least a file name. */
  function CheckCreate(form: AttachmentFields, selected: Option<File>): (r: Option<AttachmentNotice>)
    ensures r == Some(BugAndUploaderRequired) <==> form.bugId == "" || form.uploadedBy == ""
    ensures r == Some(FileRequired) <==> form.bugId != "" && form.uploadedBy != "" && selected.None? && form.fileName == ""
    ensures r.None? <==> form.bugId != "" && form.uploadedBy != "" && (selected.Some? || form.fileName != "")
  {
    if form.bugId == "" || form.uploadedBy == "" then Some(BugAndUploaderRequired)
    else if selected.None? && form.fileName == "" then Some(FileRequired)
    else None
  }

  /** The request a create sends: with a chosen file, a multipart upload to the
      bug's path carrying only the file and the uploader; otherwise the form's
      fields as JSON to the collection. */
  function CreateRequest(form: AttachmentFields, selected: Option<File>, authorization: string): (c: Call<AttachmentBody>)
    ensures c.verb == Post && c.authorization == authorization
    ensures selected.Some? <==> c.body.Multipart?
    ensures c.body.Multipart? ==>
              c.path == AttachmentsPath + "/" + form.bugId && c.body == Multipart(selected.value, form.uploadedBy)
    ensures c.body.Manual? ==>
              c.path == AttachmentsPath && c.body.bugId == Number(form.bugId) && c.body.fileSize == Number(form.fileSize)
              && c.body.fileName == form.fileName && c.body.filePath == form.filePath
              && c.body.uploadedBy == form.uploadedBy && c.body.fileType == form.fileType
  {
    match selected
    case Some(file) => Call(Post, AttachmentsPath + "/" + form.bugId, authorization, Multipart(file, form.uploadedBy))
    case None =>
      Call(Post, AttachmentsPath, authorization,
           Manual(Number(form.bugId), form.fileName, form.filePath, form.uploadedBy, form.fileType, Number(form.fileSize)))
  }

  /** Choosing a file and then cancelling the picker keeps the file's details
      in the form while the selection is gone: a create then sends them as a
      manual entry, with the file's own size. */
  lemma {:induction false} ChooseThenCancel(form: AttachmentFields, file: File, authorization: string)
    requires form.bugId != "" && form.uploadedBy != "" && file.name != ""
    ensures CheckCreate(Chosen(form, file), None).None?
    ensures CreateRequest(Chosen(form, file), None, authorization).body ==
              Manual(Number(form.bugId), file.name, "uploads/" + file.name, form.uploadedBy, file.mimeType, Some(file.size))
  {
    NumberOfDecimal(file.size);
  }

  function CreateError(f: Failure): (n: AttachmentNotice)
    ensures StatusOf(f) == Some(403) <==> n == CreateDenied
    ensures StatusOf(f) != Some(403) ==> n == CreateFailed("Error creating attachment: " + ErrorText(f))
  {
    if StatusOf(f) == Some(403) then CreateDenied else CreateFailed("Error creating attachment: " + ErrorText(f))
  }

  /** The screen's form state. `editing` is the attachment being edited; no
      handler of this screen sets it, only the reset clears it. */
  class AttachmentScreen {
    var formData: AttachmentFields
    var selectedFile: Option<File>
    var editing: Option<int>

    constructor ()
      ensures formData == BlankForm && selectedFile.None? && editing.None?
    {
      formData, selectedFile, editing := BlankForm, None, None;
    }

    /** `handleFileChange`: the selection always becomes what the picker
        returned; the form changes only when a file was picked. */
    method HandleFileChange(file: Option<File>)
      modifies this
      ensures selectedFile == file
      ensures formData == (if file.Some? then Chosen(old(formData), file.value) else old(formData))
      ensures formData.bugId == old(formData).bugId && formData.uploadedBy == old(formData).uploadedBy
      ensures editing == old(editing)
    {
      selectedFile := file;
      if file.Some? {
        formData := Chosen(formData, file.value);
      }
    }

    /** `createAttachment`. Success clears the form and the selection. */
    method Create(local: map<string, string>, session: map<string, string>, reply: Exchange<()>)
      returns (request: Option<Call<AttachmentBody>>, notice: AttachmentNotice)
      modifies this
      ensures !SignedIn(local, session) ==> request.None? && notice == LoginRequired
      ensures SignedIn(local, session) ==>
                var r := CheckCreate(old(formData), old(selectedFile));
                if r.Some? then request.None? && notice == r.value
                else request == Some(CreateRequest(old(formData), old(selectedFile), "Bearer " + Token(local, session).value))
      ensures request.Some? && reply.Ok? ==> notice == AttachmentAdded && formData == BlankForm && selectedFile.None?
      ensures request.Some? && reply.Failed? ==> notice == CreateError(reply.failure)
      ensures !(request.Some? && reply.Ok?) ==> formData == old(formData) && selectedFile == old(selectedFile)
      ensures editing == old(editing)
    {
      var ok := CheckAuth(local, session);
      if !ok {
        return None, LoginRequired;
      }
      var r := CheckCreate(formData, selectedFile);
      if r.Some? {
        return None, r.value;
      }
      var header := GetAuthHeaders(local, session);
      assert header.Some?;
      request := Some(CreateRequest(formData, selectedFile, header.value));
      match reply {
        case Ok(_, _) =>
          notice := AttachmentAdded;
          formData := BlankForm;
          selectedFile := None;
        case Failed(failure) =>
          notice := CreateError(failure);
      }
    }

    /** `resetForm`: clears the edit, the six fields and the selection, and
        says so. */
    method ResetForm() returns (notice: AttachmentNotice)
      modifies this
      ensures notice == FormReset
      ensures editing.None? && formData == BlankForm && selectedFile.None?
    {
      editing := None;
      formData := BlankForm;
      selectedFile := None;
      notice := FormReset;
    }
  }
}

=== FILE: auth.dfy ===
/** Browser storage and the bearer-token probe every CRUD screen copies
    (`getAuthHeaders` and `checkAuth`). */
module Auth {
  import opened Js

  /** `localStorage` and `sessionStorage` of the page, key to stored text. */
  class BrowserStorage {
    var local: map<string, string>
    var session: map<string, string>

    constructor (local: map<string, string>, session: map<string, string>)
      ensures this.local == local && this.session == session
    {
      this.local := local;
      this.session := session;
    }

    /** `localStorage.setItem(key, value)` */
    method SetLocal(key: string, value: string)
      modifies this
      ensures local == old(local)[key := value] && session == old(session)
    {
      local := local[key := value];
    }
  }

  /** The keys probed for a token, in probing order. */
  const TokenKeys: seq<string> := ["token", "authToken", "jwtToken", "accessToken", "bearerToken"]

  /** `getItem(key)` as the probe tests it: a missing key (null) reads as "",
      and both are falsy. */
  function Item(store: map<string, string>, key: string): string {
    if key in store then store[key] else ""
  }

  /** The position of the first key in `keys` whose item is truthy, or
      `|keys|` when there is none. */
  function FirstIndex(store: map<string, string>, keys: seq<string>): (k: nat)
    ensures k <= |keys|
    ensures forall j :: 0 <= j < k ==> Item(store, keys[j]) == ""
    ensures k < |keys| ==> Item(store, keys[k]) != ""
  {
    if keys == [] || Item(store, keys[0]) != "" then 0
    else 1 + FirstIndex(store, keys[1..])
  }

  /** The item of the first key in `keys` that is truthy, if any. */
  function FirstToken(store: map<string, string>, keys: seq<string>): (t: Option<string>)
    ensures t.None? <==> forall i :: 0 <= i < |keys| ==> Item(store, keys[i]) == ""
    ensures t.Some? ==> t.value != ""
  {
    var k := FirstIndex(store, keys);
    if k < |keys| then Some(Item(store, keys[k])) else None
  }

  /** The token `getAuthHeaders` finds: local storage in key order first, and
      only when it holds none, session storage in the same order. */
  function Token(local: map<string, string>, session: map<string, string>): Option<string> {
    var t := FirstToken(local, TokenKeys);
    if t.Some? then t else FirstToken(session, TokenKeys)
  }

  /** Some probed key holds a truthy item in one store or the other. */
  predicate SignedIn(local: map<string, string>, session: map<string, string>) {
    exists i :: 0 <= i < |TokenKeys| && (Item(local, TokenKeys[i]) != "" || Item(session, TokenKeys[i]) != "")
  }

  /** A token is found exactly when some probed key is truthy in either store,
      and a truthy local key always wins over every session key. */
  lemma TokenFound(local: map<string, string>, session: map<string, string>)
    ensures Token(local, session).Some? <==> SignedIn(local, session)
    ensures FirstToken(local, TokenKeys).Some? ==> Token(local, session) == FirstToken(local, TokenKeys)
  {
  }

  /** `getAuthHeaders()`: the `Authorization` value "Bearer <token>", or null. */
  method GetAuthHeaders(local: map<string, string>, session: map<string, string>)
    returns (header: Option<string>)
    ensures header.None? <==> !SignedIn(local, session)
    ensures header.Some? ==> header == Some("Bearer " + Token(local, session).value)
  {
    var token := "";
    var i := 0;
    while i < |TokenKeys|
      invariant 0 <= i <= |TokenKeys|
      invariant token == ""
      invariant forall j :: 0 <= j < i ==> Item(local, TokenKeys[j]) == ""
    {
      token := Item(local, TokenKeys[i]);
      if token != "" {
        break;
      }
      i := i + 1;
    }
    assert token != "" ==> token == FirstToken(local, TokenKeys).value;
    if token == "" {
      i := 0;
      while i < |TokenKeys|
        invariant 0 <= i <= |TokenKeys|
        invariant token == ""
        invariant forall j :: 0 <= j < i ==> Item(session, TokenKeys[j]) == ""
      {
        token := Item(session, TokenKeys[i]);
        if token != "" {
          break;
        }
        i := i + 1;
      }
    }
    TokenFound(local, session);
    if token == "" {
      return None;
    }
    return Some("Bearer " + token);
  }

  /** `checkAuth()`: scans key by key, each key in local storage and then in
      session storage, and answers whether a token exists. */
  method CheckAuth(local: map<string, string>, session: map<string, string>) returns (ok: bool)
    ensures ok <==> SignedIn(local, session)
    ensures ok <==> Token(local, session).Some?
  {
    var token := "";
    var i := 0;
    while i < |TokenKeys|
      invariant 0 <= i <= |TokenKeys|
      invariant token == ""
      invariant forall j :: 0 <= j < i ==> Item(local, TokenKeys[j]) == "" && Item(session, TokenKeys[j]) == ""
    {
      token := if Item(local, TokenKeys[i]) != "" then Item(local, TokenKeys[i]) else Item(session, TokenKeys[i]);
      if token != "" {
        break;
      }
      i := i + 1;
    }
    TokenFound(local, session);
    ok := token != "";
  }
}

=== FILE: bug_list.dfy ===
/** The administrator's bug screen: the list controls (priority filter, sort,
    page size, paging), the pager it draws, the URL of a paged request, and the
    create, edit and reset handlers of the bug form. */
module BugList {
  import opened Js
  import opened Http
  import opened Auth
  import opened Forms

  const BugsPath := "/api/bugs"

  function Min(a: int, b: int): int { if a < b then a else b }
  function Max(a: int, b: int): int { if a < b then b else a }

  /** The first page index the pager shows: two before the current page, pulled
      back so that five buttons fit before the last page, and never below 0. */
  function WindowStart(currentPage: int, totalPages: int): int {
    Max(0, Min(currentPage - 2, totalPages - 5))
  }

  /** The button drawn in position `index`, or none when its page index is past
      the last page. */
  function Slot(currentPage: int, totalPages: int, index: int): Option<int> {
    var pageIndex := WindowStart(currentPage, totalPages) + index;
    if pageIndex >= totalPages then None else Some(pageIndex)
  }

  /** The numbered buttons, one slot for each of `min(5, totalPages)` positions. */
  function Window(currentPage: int, totalPages: int): (w: seq<Option<int>>)
    requires totalPages >= 0
    ensures |w| == Min(5, totalPages)
  {
    seq(Min(5, totalPages), index requires 0 <= index < Min(5, totalPages) => Slot(currentPage, totalPages, index))
  }

  /** The pager draws `min(5, totalPages)` buttons for consecutive pages, all of
      them real pages (the guard against a page past the end never fires); it
      always includes the current page, and centres it whenever two pages fit on
      either side. */
  lemma {:induction false} WindowShape(currentPage: int, totalPages: int)
    requires totalPages >= 0
    ensures var w := Window(currentPage, totalPages);
      && (forall i :: 0 <= i < |w| ==> w[i] == Some(WindowStart(currentPage, totalPages) + i))
      && (forall i :: 0 <= i < |w| ==> 0 <= w[i].value < totalPages)
      && (0 <= currentPage < totalPages ==> Some(currentPage) in w)
      && (2 <= currentPage <= totalPages - 3 ==> w[2] == Some(currentPage))
  {
    var w := Window(currentPage, totalPages);
    var start := WindowStart(currentPage, totalPages);
    forall i | 0 <= i < |w|
      ensures w[i] == Some(start + i) && 0 <= start + i < totalPages
    {
      assert start + i < totalPages;
    }
    if 0 <= currentPage < totalPages {
      assert 0 <= currentPage - start < |w|;
      assert w[currentPage - start] == Some(currentPage);
    }
  }

  /** The pager's controls. */
  datatype Control = First | Previous | PageButton(pageIndex: int) | Next | Last

  /** The pager is drawn only in paged mode and only when there is more than one
      page. */
  predicate PagerShown(usePagination: bool, totalPages: int) {
    usePagination && totalPages > 1
  }

  /** Whether a control can be pressed: First and Previous are disabled on the
      first page, Next and Last on the last one, and a numbered button exists
      only when the window draws it. */
  predicate Enabled(currentPage: int, totalPages: int, c: Control)
    requires totalPages >= 0
  {
    match c
    case First => currentPage != 0
    case Previous => currentPage != 0
    case PageButton(pageIndex) => Some(pageIndex) in Window(currentPage, totalPages)
    case Next => currentPage != totalPages - 1
    case Last => currentPage != totalPages - 1
  }

  /** The page a control moves to. */
  function Target(currentPage: int, totalPages: int, c: Control): int {
    match c
    case First => 0
    case Previous => currentPage - 1
    case PageButton(pageIndex) => pageIndex
    case Next => currentPage + 1
    case Last => totalPages - 1
  }

  /** Starting from a page in range, every control the pager lets the user press
      lands on a page in range. */
  lemma {:induction false} ControlsStayInRange(currentPage: int, totalPages: int, c: Control)
    requires totalPages > 1 && 0 <= currentPage < totalPages
    requires Enabled(currentPage, totalPages, c)
    ensures 0 <= Target(currentPage, totalPages, c) < totalPages
  {
    if c.PageButton? {
      WindowShape(currentPage, totalPages);
      var w := Window(currentPage, totalPages);
      var i :| 0 <= i < |w| && w[i] == Some(c.pageIndex);
      assert 0 <= w[i].value < totalPages;
    }
  }

  /** The query shared by both paged requests. */
  function Query(page: int, size: int, sortBy: string, sortDir: string): string {
    "?page=" + Decimal(page) + "&size=" + Decimal(size) + "&sortBy=" + sortBy + "&sortDir=" + sortDir
  }

  /** The path of a paged request: the plain paged listing without a filter,
      the priority listing with one. */
  function PagePath(filterPriority: string): string {
    if filterPriority == "" then BugsPath + "/paginated" else BugsPath + "/filter/priority/" + filterPriority
  }

  /** The URL of a paged request. */
  function PageUrl(filterPriority: string, page: int, size: int, sortBy: string, sortDir: string): (url: string)
    ensures |url| > |PagePath(filterPriority)| && url[..|PagePath(filterPriority)|] == PagePath(filterPriority)
  {
    PagePath(filterPriority) + Query(page, size, sortBy, sortDir)
  }

  /** The filter chooses the path and nothing else: two requests for the same
      page carry the same query whatever their filters, and a filtered request
      never asks for the unfiltered listing. */
  lemma {:induction false} FilterOnlyChangesPath(f: string, g: string, page: int, size: int, sortBy: string, sortDir: string)
    ensures var q := Query(page, size, sortBy, sortDir);
      var u := PageUrl(f, page, size, sortBy, sortDir);
      var v := PageUrl(g, page, size, sortBy, sortDir);
      u[|u| - |q|..] == q && v[|v| - |q|..] == q
    ensures f != "" ==> PageUrl(f, page, size, sortBy, sortDir) != PageUrl("", page, size, sortBy, sortDir)
  {
    var q := Query(page, size, sortBy, sortDir);
    var u := PageUrl(f, page, size, sortBy, sortDir);
    var v := PageUrl(g, page, size, sortBy, sortDir);
    assert u[|u| - |q|..] == q;
    assert v[|v| - |q|..] == q;
    if f != "" {
      var plain := PageUrl("", page, size, sortBy, sortDir);
      var k := |BugsPath| + 1;
      assert u[k] == 'f' && plain[k] == 'p';
    }
  }

  /** The body of the create-bug request; a project id that is not a number is
      sent as null. */
  datatype BugPayload = BugPayload(title: string, description: string, priority: string, projectId: Option<int>)

  /** The create body: the form as typed, the project id read as a number. */
  function Payload(form: BugFields): BugPayload {
    BugPayload(form.title, form.description, form.priority, NumberOf(form.projectId))
  }

  /** The create checks: a title and a truthy project id. */
  predicate Filled(form: BugFields) {
    form.title != "" && Truthy(form.projectId)
  }

  /** A bug as the list shows it: its own `projectId` property (none when
      absent or null) and the id of its nested project, if it has one. */
  datatype Bug = Bug(bugId: int, title: string, description: string, priority: string,
                     projectId: Option<int>, project: Option<int>)

  /** The form the edit handler fills from a bug: the project id is the bug's
      own `projectId` when truthy, else its nested project's id, else "". */
  function EditForm(b: Bug): BugFields {
    BugFields(b.title, b.description, b.priority,
              if b.projectId.Some? && b.projectId.value != 0 then Numeric(b.projectId.value)
              else if b.project.Some? then Numeric(b.project.value)
              else Typed(""))
  }

  /** Editing a bug and creating from the filled form: the create checks pass
      exactly when the bug has a title and a non-zero project id, its own or its
      project's, and the request then carries that id and the bug's text. */
  lemma {:induction false} EditThenCreate(b: Bug)
    ensures Filled(EditForm(b)) <==>
              b.title != "" && ((b.projectId.Some? && b.projectId.value != 0) || (b.project.Some? && b.project.value != 0))
    ensures Filled(EditForm(b)) ==>
              Payload(EditForm(b)) ==
              BugPayload(b.title, b.description, b.priority,
                         if b.projectId.Some? && b.projectId.value != 0 then b.projectId else b.project)
  {
  }

  datatype BugNotice =
    | LoginRequired
    | TitleAndProjectRequired
    | BugAdded
    | AccessDenied
    | CreateFailed(text: string)
    | FormReset

  /** What the create handler shows when the call rejects. */
  function CreateError(f: Failure): (n: BugNotice)
    ensures StatusOf(f) == Some(403) <==> n == AccessDenied
    ensures n != AccessDenied ==> n == CreateFailed("Error creating bug: " + DataOrMessage(f))
  {
    if StatusOf(f) == Some(403) then AccessDenied else CreateFailed("Error creating bug: " + DataOrMessage(f))
  }

  /** The create form. The project id is the text typed, or the number the edit
      handler copies in. */
  datatype BugFields = BugFields(title: string, description: string, priority: string, projectId: FormValue)

  /** The form when the screen opens and after a successful create or a reset. */
  const BlankForm := BugFields("", "", "MEDIUM", Typed(""))

  /** The bug screen's state. */
  class BugScreen {
    var formData: BugFields
    var editing: Option<Bug>
    var filterPriority: string
    var sortBy: string
    var sortDir: string
    var pageSize: int
    var currentPage: int
    var totalPages: int
    var usePagination: bool

    constructor ()
      ensures formData == BlankForm && editing.None?
      ensures filterPriority == "" && sortBy == "priority" && sortDir == "asc"
      ensures pageSize == 5 && currentPage == 0 && totalPages == 0 && !usePagination
    {
      formData := BlankForm;
      editing := None;
      filterPriority, sortBy, sortDir := "", "priority", "asc";
      pageSize, currentPage, totalPages := 5, 0, 0;
      usePagination := false;
    }

    /** The URL of the paged request the screen makes in its current state. */
    function RequestUrl(): string
      reads this
    {
      PageUrl(filterPriority, currentPage, pageSize, sortBy, sortDir)
    }

    /** Choosing a priority filter goes back to the first page. */
    method SetFilterPriority(p: string)
      modifies this
      ensures filterPriority == p && currentPage == 0
      ensures sortBy == old(sortBy) && sortDir == old(sortDir) && pageSize == old(pageSize)
      ensures usePagination == old(usePagination) && totalPages == old(totalPages)
      ensures formData == old(formData) && editing == old(editing)
    {
      filterPriority := p;
      currentPage := 0;
    }

    /** Choosing a sort field goes back to the first page. */
    method SetSortBy(field: string)
      modifies this
      ensures sortBy == field && currentPage == 0
      ensures filterPriority == old(filterPriority) && sortDir == old(sortDir) && pageSize == old(pageSize)
      ensures usePagination == old(usePagination) && totalPages == old(totalPages)
      ensures formData == old(formData) && editing == old(editing)
    {
      sortBy := field;
      currentPage := 0;
    }

    /** Choosing a sort direction goes back to the first page. */
    method SetSortDir(dir: string)
      modifies this
      ensures sortDir == dir && currentPage == 0
      ensures filterPriority == old(filterPriority) && sortBy == old(sortBy) && pageSize == old(pageSize)
      ensures usePagination == old(usePagination) && totalPages == old(totalPages)
      ensures formData == old(formData) && editing == old(editing)
    {
      sortDir := dir;
      currentPage := 0;
    }

    /** Choosing a page size goes back to the first page. */
    method SetPageSize(size: int)
      modifies this
      ensures pageSize == size && currentPage == 0
      ensures filterPriority == old(filterPriority) && sortBy == old(sortBy) && sortDir == old(sortDir)
      ensures usePagination == old(usePagination) && totalPages == old(totalPages)
      ensures formData == old(formData) && editing == old(editing)
    {
      pageSize := size;
      currentPage := 0;
    }

    /** Ticking "Enable Pagination" keeps the current page. */
    method SetUsePagination(on: bool)
      modifies this
      ensures usePagination == on && currentPage == old(currentPage)
      ensures filterPriority == old(filterPriority) && sortBy == old(sortBy) && sortDir == old(sortDir)
      ensures pageSize == old(pageSize) && totalPages == old(totalPages)
      ensures formData == old(formData) && editing == old(editing)
    {
      usePagination := on;
    }

    /** Pressing an enabled control of the drawn pager. */
    method Press(c: Control)
      requires PagerShown(usePagination, totalPages) && Enabled(currentPage, totalPages, c)
      modifies this
      ensures currentPage == Target(old(currentPage), totalPages, c)
      ensures 0 <= old(currentPage) < totalPages ==> 0 <= currentPage < totalPages
      ensures filterPriority == old(filterPriority) && sortBy == old(sortBy) && sortDir == old(sortDir)
      ensures pageSize == old(pageSize) && totalPages == old(totalPages) && usePagination == old(usePagination)
      ensures formData == old(formData) && editing == old(editing)
    {
      if 0 <= currentPage < totalPages {
        ControlsStayInRange(currentPage, totalPages, c);
      }
      currentPage := Target(currentPage, totalPages, c);
    }

    /** `createBug`. The token probe runs first, then the required fields are
        checked; `reply` is the outcome of the POST. Returns the request sent and
        the notice shown. */
    method CreateBug(local: map<string, string>, session: map<string, string>, reply: Exchange<()>)
      returns (request: Option<Call<BugPayload>>, notice: BugNotice)
      modifies this
      ensures !SignedIn(local, session) ==>
                request.None? && notice == LoginRequired
      ensures SignedIn(local, session) && !Filled(old(formData)) ==>
                request.None? && notice == TitleAndProjectRequired
      ensures SignedIn(local, session) && Filled(old(formData)) ==>
                request == Some(Call(Post, BugsPath + "/add", "Bearer " + Token(local, session).value,
                                     Payload(old(formData))))
      ensures request.Some? && reply.Ok? ==> notice == BugAdded && formData == BlankForm
      ensures request.Some? && reply.Failed? ==> notice == CreateError(reply.failure)
      ensures !(request.Some? && reply.Ok?) ==> formData == old(formData)
      ensures editing == old(editing)
      ensures filterPriority == old(filterPriority) && sortBy == old(sortBy) && sortDir == old(sortDir)
      ensures pageSize == old(pageSize) && currentPage == old(currentPage)
      ensures totalPages == old(totalPages) && usePagination == old(usePagination)
    {
      var ok := CheckAuth(local, session);
      if !ok {
        return None, LoginRequired;
      }
      if !Filled(formData) {
        return None, TitleAndProjectRequired;
      }
      var header := GetAuthHeaders(local, session);
      assert header.Some?;
      request := Some(Call(Post, BugsPath + "/add", header.value, Payload(formData)));
      match reply {
        case Ok(_, _) =>
          notice := BugAdded;
          formData := BlankForm;
        case Failed(failure) =>
          notice := CreateError(failure);
      }
    }

    /** `handleEdit`: selects the bug and fills the form from it; the list
        controls stay as they are. */
    method HandleEdit(b: Bug)
      modifies this
      ensures editing == Some(b) && formData == EditForm(b)
      ensures filterPriority == old(filterPriority) && sortBy == old(sortBy) && sortDir == old(sortDir)
      ensures pageSize == old(pageSize) && currentPage == old(currentPage)
      ensures totalPages == old(totalPages) && usePagination == old(usePagination)
    {
      editing := Some(b);
      formData := EditForm(b);
    }

    /** `resetForm`: ends the edit, clears the form and says so; the list
        controls stay as they are. */
    method ResetForm() returns (notice: BugNotice)
      modifies this
      ensures notice == FormReset
      ensures editing.None? && formData == BlankForm
      ensures filterPriority == old(filterPriority) && sortBy == old(sortBy) && sortDir == old(sortDir)
      ensures pageSize == old(pageSize) && currentPage == old(currentPage)
      ensures totalPages == old(totalPages) && usePagination == old(usePagination)
    {
      editing := None;
      formData := BlankForm;
      notice := FormReset;
    }
  }
}

=== FILE: forms.dfy ===
/** Form fields. A field normally holds the text typed into its input, but an
    edit handler may copy a number from a fetched record straight into it; the
    two behave differently under JavaScript truthiness. */
module Forms {
  import opened Js

  datatype FormValue = Typed(text: string) | Numeric(number: int)

  /** `!!value`: empty text and the number 0 are falsy. */
  predicate Truthy(v: FormValue) {
    match v
    case Typed(s) => s != ""
    case Numeric(n) => n != 0
  }

  /** `Number(value)`, with NaN as none. */
  function NumberOf(v: FormValue): (r: Option<int>)
    ensures v.Numeric? ==> r == Some(v.number)
    ensures v.Typed? ==> r == Number(v.text)
  {
    match v
    case Typed(s) => Number(s)
    case Numeric(n) => Some(n)
  }

  /** A number shown in a field reads back as itself, whether the field holds the
      number or its `toString()` text. */
  lemma {:induction false} NumberRoundTrip(n: int)
    ensures NumberOf(Numeric(n)) == Some(n)
    ensures NumberOf(Typed(Decimal(n))) == Some(n)
  {
    NumberOfDecimal(n);
  }

  /** An optional text field as a request body carries it: present (or not
      null) only when set. */
  function Given(text: string): (d: Option<string>)
    ensures d.Some? <==> text != ""
    ensures d.Some? ==> d.value == text
  {
    if text != "" then Some(text) else None
  }

  /** A field is an accepted positive id (`Number(v) > 0`, so not NaN)
      exactly when it reads as a positive number; a positive number is always
      truthy. */
  predicate PositiveId(v: FormValue) {
    NumberOf(v).Some? && NumberOf(v).value > 0
  }

  lemma {:induction false} PositiveIdTruthy(v: FormValue)
    requires PositiveId(v)
    ensures Truthy(v)
  {
  }
}

=== FILE: http.dfy ===
/** Outcomes of the screens' axios calls, and the ways the screens turn a
    rejected call into the text they show. */
module Http {
  import opened Js

  /** `err.response.data` of a rejected call: a plain string, a parsed JSON
      object (its `message` property, if any, and its `JSON.stringify` text),
      or null. */
  datatype Body = Text(text: string) | Record(message: Option<string>, json: string) | Null

  /** Why an axios promise rejected: a response with a non-2xx status, a request
      that got no response, or an exception raised before anything was sent. */
  datatype Failure = Rejected(status: int, body: Body) | NoResponse | Thrown(message: string)

  /** The settled outcome of one call: resolved with the response's status and
      data, or rejected. */
  datatype Exchange<T> = Ok(status: int, data: T) | Failed(failure: Failure)

  /** How a handler ends: a notice it shows, or an exception thrown from its own
      catch block (calling `includes` on an object body) that nobody catches. */
  datatype Outcome<N> = Shown(notice: N) | Uncaught

  datatype Verb = Get | Post | Put | Delete

  /** A request a screen dispatches: verb, path below the backend host, the
      `Authorization` header value and the JSON body. */
  datatype Call<P> = Call(verb: Verb, path: string, authorization: string, body: P)

  /** `err.response?.status` */
  function StatusOf(f: Failure): Option<int> {
    if f.Rejected? then Some(f.status) else None
  }

  /** `err.message`: axios reports a rejected status as "Request failed with
      status code N" and a missing response as "Network Error". */
  function ErrorMessage(f: Failure): (m: string)
    ensures f.Thrown? || m != ""
  {
    match f
    case Rejected(status, _) => "Request failed with status code " + Decimal(status)
    case NoResponse => "Network Error"
    case Thrown(message) => message
  }

  /** `message` is truthy: present and not the empty string. */
  predicate HasMessage(b: Body) {
    b.Record? && b.message.Some? && b.message.value != ""
  }

  /** The fallback chain most screens print after their status checks: a string
      body as it is, else the body's `message`, else `err.message`, else
      "Unknown error occurred". */
  function ErrorText(f: Failure): (t: string)
    ensures f.Rejected? && f.body.Text? ==> t == f.body.text
    ensures f.Rejected? && HasMessage(f.body) ==> t == f.body.message.value
    ensures !(f.Rejected? && (f.body.Text? || HasMessage(f.body))) ==>
              t == (if ErrorMessage(f) != "" then ErrorMessage(f) else "Unknown error occurred")
  {
    if f.Rejected? && f.body.Text? then f.body.text
    else if f.Rejected? && HasMessage(f.body) then f.body.message.value
    else if ErrorMessage(f) != "" then ErrorMessage(f)
    else "Unknown error occurred"
  }

  /** The generic fallback is reached only by an exception with an empty
      message: axios always names a rejected status or a missing response.
      A string body is the only way to show an empty text. */
  lemma ErrorTextFallback(f: Failure)
    ensures !f.Thrown? && !(f.Rejected? && (f.body.Text? || HasMessage(f.body))) ==>
              ErrorText(f) == ErrorMessage(f) != ""
    ensures ErrorText(f) == "" <==> f.Rejected? && f.body == Text("")
  {
  }

  /** `err.response?.data || err.message`, as the bug screen prints it: a
      non-empty string body, "[object Object]" for an object body, else
      `err.message`. */
  function DataOrMessage(f: Failure): (t: string)
    ensures f.Rejected? && f.body.Text? && f.body.text != "" ==> t == f.body.text
    ensures f.Rejected? && f.body.Record? ==> t == "[object Object]"
    ensures !(f.Rejected? && (f.body.Record? || (f.body.Text? && f.body.text != ""))) ==>
              t == ErrorMessage(f)
  {
    if f.Rejected? && f.body.Text? && f.body.text != "" then f.body.text
    else if f.Rejected? && f.body.Record? then "[object Object]"
    else ErrorMessage(f)
  }

  /** How `data.includes(needle)` evaluates on a response body: a string is
      searched, null short-circuits the surrounding `data && ...` to false, and
      an object has no `includes` method, so the call throws. */
  datatype Search = Found | Absent | Throws

  function SearchBody(b: Body, needle: string): (r: Search)
    ensures r == Throws <==> b.Record?
    ensures r == Found <==> b.Text? && b.text != "" && Includes(b.text, needle)
  {
    match b
    case Text(s) => if s != "" && Includes(s, needle) then Found else Absent
    case Record(_, _) => Throws
    case Null => Absent
  }
}

=== FILE: js.dfy ===
/** The few JavaScript string and number operations the screens rely on:
    `String.prototype.trim`, `split(".")`, `includes`, integer `toString`
    and the `Number(...)` coercion of form text. */
module Js {

  datatype Option<+T> = None | Some(value: T)

  /** JavaScript WhiteSpace and LineTerminator code points (what `trim` removes). */
  predicate IsSpace(c: char) {
    c == ' ' || c == '\t' || c == '\n' || c == '\r' || c == '\U{B}' || c == '\U{C}'
    || c == '\U{A0}' || c == '\U{1680}' || ('\U{2000}' <= c <= '\U{200A}')
    || c == '\U{2028}' || c == '\U{2029}' || c == '\U{202F}' || c == '\U{205F}'
    || c == '\U{3000}' || c == '\U{FEFF}'
  }

  predicate AllSpace(s: string) {
    forall i :: 0 <= i < |s| ==> IsSpace(s[i])
  }

  function TrimStart(s: string): string {
    if s == [] || !IsSpace(s[0]) then s else TrimStart(s[1..])
  }

  function TrimEnd(s: string): string {
    if s == [] || !IsSpace(s[|s| - 1]) then s else TrimEnd(s[..|s| - 1])
  }

  /** `TrimStart` drops a leading run of white space and nothing else. */
  lemma {:induction false} TrimStartSpec(s: string)
    ensures |TrimStart(s)| <= |s| && TrimStart(s) == s[|s| - |TrimStart(s)|..]
    ensures TrimStart(s) == "" || !IsSpace(TrimStart(s)[0])
    ensures AllSpace(s[..|s| - |TrimStart(s)|])
    decreases |s|
  {
    if s != [] && IsSpace(s[0]) {
      TrimStartSpec(s[1..]);
      var r := TrimStart(s);
      assert r == TrimStart(s[1..]);
      var lead := s[..|s| - |r|];
      var rest := s[1..][..|s| - 1 - |r|];
      assert lead == [s[0]] + rest;
      forall i | 0 <= i < |lead|
        ensures IsSpace(lead[i])
      {
        if i > 0 {
          assert lead[i] == rest[i - 1];
        }
      }
    }
  }

  /** `TrimEnd` drops a trailing run of white space and nothing else. */
  lemma {:induction false} TrimEndSpec(s: string)
    ensures |TrimEnd(s)| <= |s| && TrimEnd(s) == s[..|TrimEnd(s)|]
    ensures TrimEnd(s) == "" || !IsSpace(TrimEnd(s)[|TrimEnd(s)| - 1])
    ensures AllSpace(s[|TrimEnd(s)|..])
    decreases |s|
  {
    if s != [] && IsSpace(s[|s| - 1]) {
      TrimEndSpec(s[..|s| - 1]);
      var r := TrimEnd(s);
      assert r == TrimEnd(s[..|s| - 1]);
      var tail := s[|r|..];
      var rest := s[..|s| - 1][|r|..];
      assert tail == rest + [s[|s| - 1]];
      forall i | 0 <= i < |tail|
        ensures IsSpace(tail[i])
      {
        if i < |rest| {
          assert tail[i] == rest[i];
        }
      }
    }
  }

  /** `s.trim()`: drops white space at both ends and keeps the rest as it is. */
  function Trim(s: string): string {
    TrimEnd(TrimStart(s))
  }

  /** The trimmed text is a piece of the original with no white space at either
      end, and it is empty exactly when the original is all white space. */
  lemma TrimSpec(s: string)
    ensures |Trim(s)| <= |s|
    ensures Trim(s) == "" || (!IsSpace(Trim(s)[0]) && !IsSpace(Trim(s)[|Trim(s)| - 1]))
    ensures Trim(s) == "" <==> AllSpace(s)
  {
    var t := TrimStart(s);
    TrimStartSpec(s);
    TrimEndSpec(t);
    if t == "" {
      assert s[..|s| - |t|] == s;
    } else {
      assert !IsSpace(t[0]);
      assert Trim(s) != "";
      assert !AllSpace(s) by { assert s[|s| - |t|] == t[0]; }
    }
  }

  /** Trimming twice is the same as trimming once. */
  lemma TrimIdempotent(s: string)
    ensures Trim(Trim(s)) == Trim(s)
  {
    var r := Trim(s);
    TrimSpec(s);
    if r != "" {
      assert TrimStart(r) == r;
      assert TrimEnd(r) == r;
    }
  }

  /** `s.includes(sub)`. */
  predicate Includes(s: string, sub: string)
    decreases |s|
  {
    |sub| <= |s| && (s[..|sub|] == sub || (s != [] && Includes(s[1..], sub)))
  }

  lemma {:induction false} IncludesAt(s: string, sub: string, k: nat)
    requires k + |sub| <= |s| && s[k..k + |sub|] == sub
    ensures Includes(s, sub)
    decreases k
  {
    if k > 0 {
      assert s[1..][k - 1..k - 1 + |sub|] == sub;
      IncludesAt(s[1..], sub, k - 1);
    }
  }

  /** Whatever surrounds a string, the whole includes it. */
  lemma IncludesInfix(a: string, sub: string, b: string)
    ensures Includes(a + sub + b, sub)
  {
    assert (a + sub + b)[|a|..|a| + |sub|] == sub;
    IncludesAt(a + sub + b, sub, |a|);
  }

  /** The pieces of `s.split(".")`: always at least one, none containing '.'. */
  function SplitDots(s: string): (parts: seq<string>)
    ensures |parts| >= 1
    ensures forall i :: 0 <= i < |parts| ==> '.' !in parts[i]
  {
    if '.' !in s then [s]
    else
      var k := FirstDot(s);
      [s[..k]] + SplitDots(s[k + 1..])
  }

  function FirstDot(s: string): (k: nat)
    requires '.' in s
    ensures k < |s| && s[k] == '.' && '.' !in s[..k]
  {
    if s[0] == '.' then 0 else 1 + FirstDot(s[1..])
  }

  /** `token.split(".")[1]`, or nothing when the token has no dot. */
  function MiddleSegment(token: string): (m: Option<string>)
    ensures m.None? <==> '.' !in token
  {
    var parts := SplitDots(token);
    if |parts| >= 2 then Some(parts[1]) else None
  }

  /** The middle segment of a three-part token `header.payload.signature` is the payload. */
  lemma ThreePartMiddle(header: string, payload: string, signature: string)
    requires '.' !in header && '.' !in payload
    ensures MiddleSegment(header + "." + payload + "." + signature) == Some(payload)
  {
    var t := header + "." + payload + "." + signature;
    assert t[|header|] == '.';
    assert t[..|header|] == header;
    assert FirstDot(t) == |header| by {
      FirstDotOf(header, payload + "." + signature);
    }
    var rest := t[|header| + 1..];
    assert rest == payload + "." + signature;
    FirstDotOf(payload, signature);
    assert rest[..|payload|] == payload;
    assert SplitDots(rest)[0] == payload;
    assert SplitDots(t) == [header] + SplitDots(rest);
  }

  lemma {:induction false} FirstDotOf(a: string, b: string)
    requires '.' !in a
    ensures '.' in a + "." + b && FirstDot(a + "." + b) == |a|
    decreases |a|
  {
    var t := a + "." + b;
    assert t[|a|] == '.';
    if a != [] {
      assert t[1..] == a[1..] + "." + b;
      FirstDotOf(a[1..], b);
    }
  }

  /** Decimal digits of a non-negative integer, most significant first. */
  function Digits(n: nat): (s: string)
    ensures |s| >= 1 && forall i :: 0 <= i < |s| ==> '0' <= s[i] <= '9'
  {
    var d := [(('0' as int) + n % 10) as char];
    if n < 10 then d else Digits(n / 10) + d
  }

  /** `n.toString()` for an integer. */
  function Decimal(n: int): (s: string)
    ensures s != ""
  {
    if n < 0 then "-" + Digits(-n) else Digits(n)
  }

  function DigitsValue(s: string): nat
    requires forall i :: 0 <= i < |s| ==> '0' <= s[i] <= '9'
  {
    if s == [] then 0
    else DigitsValue(s[..|s| - 1]) * 10 + (s[|s| - 1] as int - '0' as int)
  }

  predicate AllDigits(s: string) {
    forall i :: 0 <= i < |s| ==> '0' <= s[i] <= '9'
  }

  /** `Number(text)` on an integer literal: surrounding white space is ignored,
      blank text is 0, an optional sign precedes one or more decimal digits;
      anything else is NaN (None). */
  function Number(text: string): (r: Option<int>)
    ensures AllSpace(text) ==> r == Some(0)
  {
    TrimSpec(text);
    var t := Trim(text);
    if t == "" then Some(0) else SignedInteger(t)
  }

  /** An optional sign followed by one or more decimal digits. */
  function SignedInteger(t: string): Option<int> {
    var negative := t != "" && t[0] == '-';
    var body := if t != "" && (t[0] == '-' || t[0] == '+') then t[1..] else t;
    if body == "" || !AllDigits(body) then None
    else
      var v: int := DigitsValue(body);
      Some(if negative then -v else v)
  }

  lemma {:induction false} DigitsRoundTrip(n: nat)
    ensures DigitsValue(Digits(n)) == n
  {
    if n >= 10 {
      DigitsRoundTrip(n / 10);
      var s := Digits(n);
      assert s[..|s| - 1] == Digits(n / 10);
    }
  }

  lemma DecimalHasNoSpace(n: int)
    ensures Trim(Decimal(n)) == Decimal(n)
  {
    var s := Decimal(n);
    assert !IsSpace(s[0]) && !IsSpace(s[|s| - 1]);
    assert TrimStart(s) == s;
    assert TrimEnd(s) == s;
  }

  lemma SignedIntegerOfDecimal(n: int)
    ensures SignedInteger(Decimal(n)) == Some(n)
  {
    var t := Decimal(n);
    if n < 0 {
      var body := Digits(-n);
      DigitsRoundTrip(-n);
      assert t[0] == '-' && t[1..] == body;
      assert AllDigits(body);
    } else {
      DigitsRoundTrip(n);
      assert t == Digits(n) && '0' <= t[0] <= '9';
      assert AllDigits(t);
    }
  }

  /** Reading back the text `toString` produced gives the same integer. */
  lemma NumberOfDecimal(n: int)
    ensures Number(Decimal(n)) == Some(n)
  {
    DecimalHasNoSpace(n);
    SignedIntegerOfDecimal(n);
  }
}

=== FILE: login.dfy ===
/** The sign-in screen: the credential check, the order in which the reply is
    written to local storage, the role claim's landing route and the text shown
    when the call fails. */
module Login {
  import opened Js
  import opened Http
  import opened Auth
  import Routes

  /** `response.data` of a resolved sign-in call; a property the backend left
      out is `undefined`. */
  datatype TokenPair = TokenPair(accessToken: Option<string>, refreshToken: Option<string>)

  /** What `JSON.parse(atob(segment))` gives for the token's middle segment
      (undefined when the token has no dot): the payload's `role` claim, or an
      exception with its message. */
  datatype Decoded = Claims(role: Option<string>) | Malformed(message: string)

  /** The body of the sign-in request. */
  datatype Credentials = Credentials(username: string, password: string)

  /** What the screen tells the user. */
  datatype LoginNotice = FillAllFields | InvalidCredentials | Problem(text: string)

  /** `localStorage.setItem(key, v)` stores `String(v)`, so an undefined value is
      stored as the text "undefined". */
  function Stored(v: Option<string>): (s: string)
    ensures v.Some? ==> s == v.value
    ensures v.None? ==> s == "undefined"
  {
    if v.Some? then v.value else "undefined"
  }

  /** The two token writes of a 200 reply sign the browser in for every CRUD
      screen, whatever the reply held: a missing access token is stored as the
      truthy text "undefined". Only an empty access token leaves the probe to
      the other keys. When no earlier key holds a token, the probe picks the
      stored access token. */
  lemma {:induction false} TokenWritesSignIn(local: map<string, string>, session: map<string, string>, pair: TokenPair)
    requires pair.accessToken != Some("")
    ensures var written := local["accessToken" := Stored(pair.accessToken)]["refreshToken" := Stored(pair.refreshToken)];
      SignedIn(written, session)
      && (Item(local, "token") == "" && Item(local, "authToken") == "" && Item(local, "jwtToken") == "" ==>
            Token(written, session) == Some(Stored(pair.accessToken)))
  {
    var written := local["accessToken" := Stored(pair.accessToken)]["refreshToken" := Stored(pair.refreshToken)];
    assert Item(written, TokenKeys[3]) == Stored(pair.accessToken) != "";
    if Item(local, "token") == "" && Item(local, "authToken") == "" && Item(local, "jwtToken") == "" {
      assert Item(written, TokenKeys[0]) == "" && Item(written, TokenKeys[1]) == "" && Item(written, TokenKeys[2]) == "";
      assert FirstIndex(written, TokenKeys) == 3;
    }
  }

  /** The TypeError raised by `accessToken.split(".")` when the reply has no
      access token. */
  const SplitOfUndefined := "Cannot read properties of undefined (reading 'split')"

  const NoBackend := "Backend not responding. Make sure Spring Boot is running."

  /** The route each role claim lands on; any other value, or no claim, lands on
      the home page. */
  function LandingRoute(role: Option<string>): (route: string)
    ensures role == Some("ROLE_ADMIN") ==> route == "/admin"
    ensures role == Some("ROLE_DEVELOPER") ==> route == "/developer"
    ensures role == Some("ROLE_TESTER") ==> route == "/tester"
    ensures role == Some("ROLE_STAKEHOLDER") ==> route == "/stakeholder"
    ensures !(role.Some? && role.value in {"ROLE_ADMIN", "ROLE_DEVELOPER", "ROLE_TESTER", "ROLE_STAKEHOLDER"}) ==>
              route == "/"
  {
    match role
    case Some("ROLE_ADMIN") => "/admin"
    case Some("ROLE_DEVELOPER") => "/developer"
    case Some("ROLE_TESTER") => "/tester"
    case Some("ROLE_STAKEHOLDER") => "/stakeholder"
    case _ => "/"
  }

  /** Every landing route is a real page: one of the four dashboards, or the
      home page when the role is not one of the four. */
  lemma {:induction false} LandingIsRealPage(role: Option<string>)
    ensures Routes.Resolve(LandingRoute(role)) != Routes.NotFoundPage
    ensures Routes.IsDashboard(Routes.Resolve(LandingRoute(role))) || Routes.Resolve(LandingRoute(role)) == Routes.Home
    ensures Routes.Resolve(LandingRoute(role)) == Routes.Home <==>
              !(role.Some? && role.value in {"ROLE_ADMIN", "ROLE_DEVELOPER", "ROLE_TESTER", "ROLE_STAKEHOLDER"})
  {
    Routes.Dashboards();
    Routes.EntryPages();
  }

  /** The text shown for a response body: a string as it is, else a truthy
      `message`, else the body's JSON. */
  function BodyText(b: Body): (t: string)
    ensures b.Text? ==> t == b.text
    ensures HasMessage(b) ==> t == b.message.value
    ensures b.Record? && !HasMessage(b) ==> t == b.json
    ensures b.Null? ==> t == "null"
  {
    match b
    case Text(s) => s
    case Record(_, json) => if HasMessage(b) then b.message.value else json
    case Null => "null"
  }

  /** The text shown when the sign-in call rejects. */
  function FailureText(f: Failure): (t: string)
    ensures f.Rejected? ==> t == BodyText(f.body)
    ensures f.NoResponse? ==> t == NoBackend
    ensures f.Thrown? ==> t == f.message
  {
    match f
    case Rejected(_, body) => BodyText(body)
    case NoResponse => NoBackend
    case Thrown(message) => message
  }

  /** The sign-in form's state. */
  class LoginForm {
    var username: string
    var password: string
    var loading: bool

    constructor ()
      ensures username == "" && password == "" && !loading
    {
      username := "";
      password := "";
      loading := false;
    }

    /** `handleLogin`. `reply` is the outcome the sign-in call settles with and
        `decode` is `JSON.parse(atob(...))` on the access token's middle
        segment. Returns the request sent (none when a field is empty), the
        notice shown and the route navigated to. */
    method HandleLogin(store: BrowserStorage, reply: Exchange<TokenPair>, decode: Option<string> -> Decoded)
      returns (request: Option<Credentials>, notice: Option<LoginNotice>, route: Option<string>)
      modifies this, store
      ensures username == old(username) && password == old(password)
      ensures store.session == old(store.session)
      ensures (old(username) == "" || old(password) == "") ==>
                request.None? && notice == Some(FillAllFields) && route.None?
                && store.local == old(store.local) && loading == old(loading)
      ensures old(username) != "" && old(password) != "" ==>
                request == Some(Credentials(old(username), old(password))) && !loading
      ensures request.Some? && reply.Ok? && reply.status != 200 ==>
                notice == Some(InvalidCredentials) && route.None? && store.local == old(store.local)
      ensures request.Some? && reply.Failed? ==>
                notice == Some(Problem(FailureText(reply.failure))) && route.None? && store.local == old(store.local)
      ensures request.Some? && reply.Ok? && reply.status == 200 ==>
                var tokens := old(store.local)["accessToken" := Stored(reply.data.accessToken)]
                                             ["refreshToken" := Stored(reply.data.refreshToken)];
                var segment := if reply.data.accessToken.Some? then MiddleSegment(reply.data.accessToken.value) else None;
                if reply.data.accessToken.None? then
                  store.local == tokens && route.None? && notice == Some(Problem(SplitOfUndefined))
                else if decode(segment).Malformed? then
                  store.local == tokens && route.None? && notice == Some(Problem(decode(segment).message))
                else
                  store.local == tokens["username" := old(username)]["role" := Stored(decode(segment).role)]
                  && route == Some(LandingRoute(decode(segment).role)) && notice.None?
    {
      if username == "" || password == "" {
        return None, Some(FillAllFields), None;
      }
      loading := true;
      request := Some(Credentials(username, password));
      notice := None;
      route := None;
      match reply {
        case Failed(failure) =>
          notice := Some(Problem(FailureText(failure)));
        case Ok(status, data) =>
          if status == 200 {
            store.SetLocal("accessToken", Stored(data.accessToken));
            store.SetLocal("refreshToken", Stored(data.refreshToken));
            if data.accessToken.None? {
              notice := Some(Problem(SplitOfUndefined));
            } else {
              var decoded := decode(MiddleSegment(data.accessToken.value));
              if decoded.Malformed? {
                notice := Some(Problem(decoded.message));
              } else {
                store.SetLocal("username", username);
                store.SetLocal("role", Stored(decoded.role));
                route := Some(LandingRoute(decoded.role));
              }
            }
          } else {
            notice := Some(InvalidCredentials);
          }
      }
      loading := false;
    }
  }
}

=== FILE: notifications.dfy ===
/** The notification screens of the tester and the stakeholder. Both keep the
    same feed state (the list shown, the last count seen, whether the first
    full fetch has happened, whether live polling is on) and update it the same
    way; the tester's screen also creates notifications. */
module Notifications {
  import opened Js
  import opened Http
  import opened Auth
  import opened Forms

  const NotificationsPath := "/api/notifications"

  /** The feed state of a notification screen, as a value. */
  datatype Feed<N> = Feed(notifications: seq<N>, lastCount: int, initialized: bool, polling: bool)

  /** The state a screen starts in. */
  function InitialFeed<N>(): (f: Feed<N>)
    ensures f.notifications == [] && f.lastCount == 0 && !f.initialized && f.polling
  {
    Feed([], 0, false, true)
  }

  /** One poll (`checkForNewNotifications`): the state does not change when no
      token is stored or the call fails (the handler's login notice for a
      missing token is returned by `NotificationFeed.Poll`); otherwise the fetched length becomes the last
      count, and only when the screen is initialised, the last count was
      positive and the list grew is the user told how many arrived and the list
      replaced. Returns the new state and the number announced, if any. */
  function PollStep<N>(f: Feed<N>, signedIn: bool, reply: Exchange<seq<N>>): (r: (Feed<N>, Option<int>))
    ensures !signedIn || reply.Failed? ==> r == (f, None)
    ensures signedIn && reply.Ok? ==>
              r.0.lastCount == |reply.data| && r.0.initialized == f.initialized && r.0.polling == f.polling
    ensures r.1.Some? <==>
              signedIn && reply.Ok? && f.initialized && f.lastCount > 0 && |reply.data| > f.lastCount
    ensures r.1.Some? ==> r.1.value >= 1 && r.1.value == |reply.data| - f.lastCount && r.0.notifications == reply.data
    ensures r.1.None? ==> r.0.notifications == f.notifications
  {
    if !signedIn || reply.Failed? then (f, None)
    else
      var current := |reply.data|;
      if f.initialized && f.lastCount > 0 && current > f.lastCount then
        (f.(notifications := reply.data, lastCount := current), Some(current - f.lastCount))
      else
        (f.(lastCount := current), None)
  }

  /** One tick of the five-second interval: a poll when live updates are on. */
  function TickStep<N>(f: Feed<N>, signedIn: bool, reply: Exchange<seq<N>>): (r: (Feed<N>, Option<int>))
    ensures !f.polling ==> r == (f, None)
    ensures f.polling ==> r == PollStep(f, signedIn, reply)
  {
    if f.polling then PollStep(f, signedIn, reply) else (f, None)
  }

  /** `fetchAllNotifications`: a successful call shows the whole list, takes its
      length as the last count and marks the screen initialised; anything else
      leaves the state alone. */
  function FetchStep<N>(f: Feed<N>, signedIn: bool, reply: Exchange<seq<N>>): (r: Feed<N>)
    ensures signedIn && reply.Ok? ==>
              r.notifications == reply.data && r.lastCount == |reply.data| && r.initialized && r.polling == f.polling
    ensures !(signedIn && reply.Ok?) ==> r == f
  {
    if signedIn && reply.Ok? then Feed(reply.data, |reply.data|, true, f.polling) else f
  }

  /** The toast text for `n` new notifications: the noun is plural exactly when
      more than one arrived. */
  function ArrivalText(n: int): (t: string)
    ensures n > 1 ==> t == Decimal(n) + " new notifications received"
    ensures n <= 1 ==> t == Decimal(n) + " new notification received"
  {
    Decimal(n) + " new notification" + (if n > 1 then "s" else "") + " received"
  }

  /** Whenever a poll announces arrivals the count is at least one, so the
      text is singular exactly for one notification. */
  lemma {:induction false} AnnouncedCount<N>(f: Feed<N>, signedIn: bool, reply: Exchange<seq<N>>)
    ensures var r := PollStep(f, signedIn, reply);
      r.1.Some? ==>
        (r.1.value >= 1
         && (ArrivalText(r.1.value) == Decimal(r.1.value) + " new notification received" <==> r.1.value == 1))
  {
    var r := PollStep(f, signedIn, reply);
    if r.1.Some? {
      var n := r.1.value;
      var singular := Decimal(n) + " new notification received";
      var plural := Decimal(n) + " new notifications received";
      if n > 1 {
        assert plural[|Decimal(n)| + 17] == 's' && singular[|Decimal(n)| + 17] == ' ';
      }
    }
  }

  /** Polling again with the same reply changes nothing and announces nothing:
      the first poll already recorded the count. */
  lemma {:induction false} PollIdempotent<N>(f: Feed<N>, signedIn: bool, reply: Exchange<seq<N>>)
    ensures var once := PollStep(f, signedIn, reply).0;
      PollStep(once, signedIn, reply) == (once, None)
  {
    var once := PollStep(f, signedIn, reply).0;
    if signedIn && reply.Ok? {
      assert once.lastCount == |reply.data|;
    }
  }

  /** Before the first full fetch no poll announces anything, and neither does a
      poll after an empty list: arrivals into an empty list are taken in
      silently. */
  lemma {:induction false} SilentPolls<N>(f: Feed<N>, signedIn: bool, reply: Exchange<seq<N>>)
    requires !f.initialized || f.lastCount == 0
    ensures PollStep(f, signedIn, reply).1.None?
  {
  }

  /** After a full fetch of a non-empty list, a poll announces exactly the
      growth of the list and shows the new list; a poll that finds the same
      list changes nothing. */
  lemma {:induction false} FetchThenPoll<N>(f: Feed<N>, fetched: seq<N>, polled: seq<N>)
    requires fetched != []
    ensures var g := FetchStep(f, true, Ok(200, fetched));
      var r := PollStep(g, true, Ok(200, polled));
      (|polled| > |fetched| ==> r.1 == Some(|polled| - |fetched|) && r.0.notifications == polled)
      && (|polled| <= |fetched| ==> r.1.None? && r.0.notifications == fetched && r.0.lastCount == |polled|)
      && PollStep(g, true, Ok(200, fetched)) == (g, None)
  {
    var g := FetchStep(f, true, Ok(200, fetched));
    assert g.initialized && g.lastCount == |fetched| > 0;
  }

  /** With live updates off, ticks leave the screen exactly as it is. */
  lemma {:induction false} PausedTicksIdle<N>(f: Feed<N>, signedIn: bool, replies: seq<Exchange<seq<N>>>)
    requires !f.polling
    ensures Ticks(f, signedIn, replies) == f
    decreases |replies|
  {
    if replies != [] {
      PausedTicksIdle(f, signedIn, replies[1..]);
    }
  }

  /** The state after a run of interval ticks. */
  function Ticks<N>(f: Feed<N>, signedIn: bool, replies: seq<Exchange<seq<N>>>): (r: Feed<N>)
    ensures r.polling == f.polling && r.initialized == f.initialized
    decreases |replies|
  {
    if replies == [] then f else Ticks(TickStep(f, signedIn, replies[0]).0, signedIn, replies[1..])
  }

  datatype FeedNotice =
    | LoginRequired
    | EnterNotificationId
    | EnterUserId
    | Loaded
    | Fetched(count: nat)
    | AccessDenied
    | NotificationMissing(id: string)
    | FetchFailed(text: string)

  /** The error a failed fetch shows: access denied for 403, otherwise the
      screen's prefix and the generic error text. */
  function FetchError(prefix: string, f: Failure): (n: FeedNotice)
    ensures StatusOf(f) == Some(403) <==> n == AccessDenied
    ensures n != AccessDenied ==> n == FetchFailed(prefix + ErrorText(f))
  {
    if StatusOf(f) == Some(403) then AccessDenied else FetchFailed(prefix + ErrorText(f))
  }

  /** The feed of one notification screen. */
  class NotificationFeed<N> {
    var notifications: seq<N>
    var lastCount: int
    var initialized: bool
    var polling: bool

    constructor ()
      ensures State() == InitialFeed()
    {
      notifications, lastCount, initialized, polling := [], 0, false, true;
    }

    function State(): Feed<N>
      reads this
    {
      Feed(notifications, lastCount, initialized, polling)
    }

    /** `checkForNewNotifications`. Returns the number of arrivals announced
        and the notice shown: the login notice when no token is stored, and
        none otherwise (a failed poll is silent). */
    method Poll(local: map<string, string>, session: map<string, string>, reply: Exchange<seq<N>>)
      returns (announced: Option<int>, notice: Option<FeedNotice>)
      modifies this
      ensures (State(), announced) == PollStep(old(State()), SignedIn(local, session), reply)
      ensures !SignedIn(local, session) ==> notice == Some(LoginRequired)
      ensures SignedIn(local, session) ==> notice.None?
    {
      var ok := CheckAuth(local, session);
      if !ok {
        return None, Some(LoginRequired);
      }
      var header := GetAuthHeaders(local, session);
      assert header.Some?;
      announced, notice := None, None;
      match reply {
        case Failed(_) =>
        case Ok(_, data) =>
          var currentCount := |data|;
          if initialized && lastCount > 0 && currentCount > lastCount {
            announced := Some(currentCount - lastCount);
            notifications := data;
          }
          lastCount := currentCount;
      }
    }

    /** The interval callback: polls only while live updates are on, so with
        no token stored every tick of a live screen shows the login notice. */
    method Tick(local: map<string, string>, session: map<string, string>, reply: Exchange<seq<N>>)
      returns (announced: Option<int>, notice: Option<FeedNotice>)
      modifies this
      ensures (State(), announced) == TickStep(old(State()), SignedIn(local, session), reply)
      ensures old(polling) && !SignedIn(local, session) ==> notice == Some(LoginRequired)
      ensures !(old(polling) && !SignedIn(local, session)) ==> notice.None?
    {
      if polling {
        announced, notice := Poll(local, session, reply);
      } else {
        announced, notice := None, None;
      }
    }

    /** The "Start/Stop Real-time" button. */
    method TogglePolling()
      modifies this
      ensures State() == old(State()).(polling := !old(polling))
    {
      polling := !polling;
    }

    /** `fetchAllNotifications`. Returns the notice shown, if any. */
    method FetchAll(local: map<string, string>, session: map<string, string>, showMessage: bool,
                    reply: Exchange<seq<N>>)
      returns (notice: Option<FeedNotice>)
      modifies this
      ensures State() == FetchStep(old(State()), SignedIn(local, session), reply)
      ensures !SignedIn(local, session) ==> notice == Some(LoginRequired)
      ensures SignedIn(local, session) && reply.Ok? ==>
                notice == (if showMessage then Some(Fetched(|reply.data|)) else None)
      ensures SignedIn(local, session) && reply.Failed? ==>
                notice == Some(FetchError("Error fetching notifications: ", reply.failure))
    {
      var ok := CheckAuth(local, session);
      if !ok {
        return Some(LoginRequired);
      }
      var header := GetAuthHeaders(local, session);
      assert header.Some?;
      match reply {
        case Ok(_, data) =>
          notifications := data;
          lastCount := |data|;
          initialized := true;
          notice := if showMessage then Some(Fetched(|data|)) else None;
        case Failed(failure) =>
          notice := Some(FetchError("Error fetching notifications: ", failure));
      }
    }

    /** `fetchNotificationById`: refuses an empty id before any request; on
        success the list shows the one notification found. Returns the path
        requested and the notice shown. */
    method FetchById(local: map<string, string>, session: map<string, string>, id: string, reply: Exchange<N>)
      returns (path: Option<string>, notice: FeedNotice)
      modifies this
      ensures !SignedIn(local, session) ==> path.None? && notice == LoginRequired
      ensures SignedIn(local, session) && id == "" ==> path.None? && notice == EnterNotificationId
      ensures SignedIn(local, session) && id != "" ==> path == Some(NotificationsPath + "/" + id)
      ensures path.Some? && reply.Ok? ==> notifications == [reply.data] && notice == Loaded
      ensures path.Some? && reply.Failed? ==>
                notice == (if StatusOf(reply.failure) == Some(404) then NotificationMissing(id)
                           else FetchError("Error fetching notification: ", reply.failure))
      ensures !(path.Some? && reply.Ok?) ==> notifications == old(notifications)
      ensures lastCount == old(lastCount) && initialized == old(initialized) && polling == old(polling)
    {
      var ok := CheckAuth(local, session);
      if !ok {
        return None, LoginRequired;
      }
      if id == "" {
        return None, EnterNotificationId;
      }
      var header := GetAuthHeaders(local, session);
      assert header.Some?;
      path := Some(NotificationsPath + "/" + id);
      match reply {
        case Ok(_, data) =>
          notifications := [data];
          notice := Loaded;
        case Failed(failure) =>
          if StatusOf(failure) == Some(404) {
            notice := NotificationMissing(id);
          } else {
            notice := FetchError("Error fetching notification: ", failure);
          }
      }
    }

    /** `fetchNotificationsByUser`: refuses an empty user id before any
        request; on success the list shows that user's notifications. */
    method FetchByUser(local: map<string, string>, session: map<string, string>, userId: string, reply: Exchange<seq<N>>)
      returns (path: Option<string>, notice: FeedNotice)
      modifies this
      ensures !SignedIn(local, session) ==> path.None? && notice == LoginRequired
      ensures SignedIn(local, session) && userId == "" ==> path.None? && notice == EnterUserId
      ensures SignedIn(local, session) && userId != "" ==> path == Some(NotificationsPath + "/user/" + userId)
      ensures path.Some? && reply.Ok? ==> notifications == reply.data && notice == Loaded
      ensures path.Some? && reply.Failed? ==>
                notice == FetchError("Error fetching notifications by user: ", reply.failure)
      ensures !(path.Some? && reply.Ok?) ==> notifications == old(notifications)
      ensures lastCount == old(lastCount) && initialized == old(initialized) && polling == old(polling)
    {
      var ok := CheckAuth(local, session);
      if !ok {
        return None, LoginRequired;
      }
      if userId == "" {
        return None, EnterUserId;
      }
      var header := GetAuthHeaders(local, session);
      assert header.Some?;
      path := Some(NotificationsPath + "/user/" + userId);
      match reply {
        case Ok(_, data) =>
          notifications := data;
          notice := Loaded;
        case Failed(failure) =>
          notice := FetchError("Error fetching notifications by user: ", failure);
      }
    }
  }

  /** The body of a create request; `createdDate` is sent only when set. */
  datatype NotificationPayload =
    NotificationPayload(userId: int, kind: string, message: string, isRead: bool, createdDate: Option<string>)

  datatype CreateNotice =
    | SignInRequired
    | FieldsRequired
    | InvalidUserId
    | NotificationAdded
    | CreateDenied
    | UserMissing(userId: int)
    | ConstraintViolation
    | InvalidData
    | DatabaseConstraint
    | CreateFailed(text: string)

  /** The checks before a create request: user id, type and message must be
      truthy, and the user id must read as a positive number. */
  datatype Checked = Refused(notice: CreateNotice) | Accepted(userId: int)

  function CheckCreate(userId: FormValue, kind: string, message: string): (c: Checked)
    ensures c == Refused(FieldsRequired) <==> !Truthy(userId) || kind == "" || message == ""
    ensures c.Accepted? <==> PositiveId(userId) && kind != "" && message != ""
    ensures c.Accepted? ==> c.userId > 0 && NumberOf(userId) == Some(c.userId)
    ensures c.Refused? ==> c.notice in {FieldsRequired, InvalidUserId}
  {
    if !Truthy(userId) || kind == "" || message == "" then Refused(FieldsRequired)
    else
      var n := NumberOf(userId);
      if n.None? || n.value <= 0 then Refused(InvalidUserId) else Accepted(n.value)
  }

  /** The payload: type and message trimmed, `isRead` as set, the date only when
      it is non-empty. */
  function MakePayload(userId: int, kind: string, message: string, isRead: bool, createdDate: string): (p: NotificationPayload)
    ensures p.userId == userId && p.kind == Trim(kind) && p.message == Trim(message) && p.isRead == isRead
    ensures p.createdDate.Some? <==> createdDate != ""
    ensures p.createdDate.Some? ==> p.createdDate.value == createdDate
  {
    NotificationPayload(userId, Trim(kind), Trim(message), isRead, Given(createdDate))
  }

  /** What the create handler shows for a rejected call. A 400 body is searched
      for a missing user before a constraint; a 500 body for a constraint
      exception; an object body in either case makes the search throw. */
  function CreateError(f: Failure, userId: int): (o: Outcome<CreateNotice>)
    ensures o.Uncaught? <==> f.Rejected? && (f.status == 400 || f.status == 500) && f.body.Record?
    ensures StatusOf(f) == Some(403) ==> o == Shown(CreateDenied)
    ensures f.Rejected? && f.status == 400 && f.body.Text? ==>
              o == Shown(if f.body.text != "" && (Includes(f.body.text, "User not found") || Includes(f.body.text, "user_id"))
                         then UserMissing(userId)
                         else if f.body.text != "" && Includes(f.body.text, "constraint") then ConstraintViolation
                         else InvalidData)
    ensures f.Rejected? && f.status == 400 && f.body.Null? ==> o == Shown(InvalidData)
    ensures f.Rejected? && f.status == 500 && !f.body.Record? ==>
              o == Shown(if SearchBody(f.body, "ConstraintViolationException") == Found then DatabaseConstraint
                         else CreateFailed("Error creating notification: " + ErrorText(f)))
    ensures !(f.Rejected? && f.status in {400, 403, 500}) ==> o == Shown(CreateFailed("Error creating notification: " + ErrorText(f)))
  {
    match StatusOf(f)
    case Some(403) => Shown(CreateDenied)
    case Some(400) =>
      var missing := SearchBody(f.body, "User not found");
      var column := SearchBody(f.body, "user_id");
      var constraint := SearchBody(f.body, "constraint");
      if missing == Throws then Uncaught
      else if missing == Found || column == Found then Shown(UserMissing(userId))
      else if constraint == Found then Shown(ConstraintViolation)
      else Shown(InvalidData)
    case Some(500) =>
      var search := SearchBody(f.body, "ConstraintViolationException");
      if search == Throws then Uncaught
      else if search == Found then Shown(DatabaseConstraint)
      else Shown(CreateFailed("Error creating notification: " + ErrorText(f)))
    case _ => Shown(CreateFailed("Error creating notification: " + ErrorText(f)))
  }

  /** A 400 body that names the user column wins over one that names a
      constraint, and a 500 that names the constraint exception is reported
      as such. */
  lemma {:induction false} UserMissingFirst(a: string, b: string, userId: int)
    ensures CreateError(Rejected(400, Text(a + "user_id" + b)), userId) == Shown(UserMissing(userId))
    ensures CreateError(Rejected(500, Text(a + "ConstraintViolationException" + b)), userId) == Shown(DatabaseConstraint)
  {
    IncludesInfix(a, "user_id", b);
    IncludesInfix(a, "ConstraintViolationException", b);
  }

  /** The tester's create form. The user id may hold a number copied in by the
      edit handler. */
  class NotificationForm {
    var userId: FormValue
    var kind: string
    var message: string
    var isRead: bool
    var createdDate: string

    constructor ()
      ensures Blank()
    {
      userId, kind, message, isRead, createdDate := Typed(""), "", "", false, "";
    }

    predicate Blank()
      reads this
    {
      userId == Typed("") && kind == "" && message == "" && !isRead && createdDate == ""
    }

    /** `createNotification`. `reply` is the outcome of the POST. Returns the
        request sent and how the handler ends. */
    method Create(local: map<string, string>, session: map<string, string>, reply: Exchange<()>)
      returns (request: Option<Call<NotificationPayload>>, outcome: Outcome<CreateNotice>)
      modifies this
      ensures !SignedIn(local, session) ==> request.None? && outcome == Shown(SignInRequired)
      ensures SignedIn(local, session) ==>
                var c := CheckCreate(old(userId), old(kind), old(message));
                if c.Refused? then request.None? && outcome == Shown(c.notice)
                else request == Some(Call(Post, NotificationsPath, "Bearer " + Token(local, session).value,
                                          MakePayload(c.userId, old(kind), old(message), old(isRead), old(createdDate))))
      ensures request.Some? && reply.Ok? ==> outcome == Shown(NotificationAdded) && Blank()
      ensures request.Some? && reply.Failed? ==> outcome == CreateError(reply.failure, request.value.body.userId)
      ensures !(request.Some? && reply.Ok?) ==>
                userId == old(userId) && kind == old(kind) && message == old(message)
                && isRead == old(isRead) && createdDate == old(createdDate)
    {
      var ok := CheckAuth(local, session);
      if !ok {
        return None, Shown(SignInRequired);
      }
      var c := CheckCreate(userId, kind, message);
      if c.Refused? {
        return None, Shown(c.notice);
      }
      var header := GetAuthHeaders(local, session);
      assert header.Some?;
      var payload := MakePayload(c.userId, kind, message, isRead, createdDate);
      request := Some(Call(Post, NotificationsPath, header.value, payload));
      match reply {
        case Ok(_, _) =>
          outcome := Shown(NotificationAdded);
          userId, kind, message, isRead, createdDate := Typed(""), "", "", false, "";
        case Failed(failure) =>
          outcome := CreateError(failure, c.userId);
      }
    }
  }
}

=== FILE: projects.dfy ===
/** The admin's project screen: the create and update checks, the two payload
    shapes, the create error precedence and the edit and reset transitions. */
module Projects {
  import opened Js
  import opened Http
  import opened Auth
  import opened Forms

  const ProjectsPath := "/api/projects"

  /** A project as the list shows it; a missing date is "", a missing manager
      is `None`. */
  datatype Project = Project(projectId: int, projectName: string, startDate: string, endDate: string, manager: Option<int>)

  /** The form. The manager id is typed text or the number the edit handler
      copies in. */
  datatype ProjectFields = ProjectFields(projectName: string, startDate: string, endDate: string, managerId: FormValue)

  const BlankForm := ProjectFields("", "", "", Typed(""))

  /** The create body: a date that is not set is left out (`None`). */
  datatype CreateBody = CreateBody(projectName: string, managerId: int, startDate: Option<string>, endDate: Option<string>)

  /** The update body: a date that is not set is sent as null (`None`), and a
      manager id that reads as NaN is sent as null too. */
  datatype UpdateBody = UpdateBody(projectId: int, projectName: string, startDate: Option<string>, endDate: Option<string>,
                                   managerId: Option<int>)

  datatype ProjectNotice =
    | FormReset
    | LoginRequired
    | NameAndManagerRequired
    | InvalidManagerId
    | SelectAndFill
    | ProjectAdded
    | ProjectUpdated
    | CreateDenied
    | ManagerMissing(managerId: int)
    | ConstraintError(managerId: int)
    | CreateFailed(text: string)
    | UpdateDenied
    | UpdateFailed(text: string)

  datatype Checked = Refused(notice: ProjectNotice) | Accepted(managerId: int)

  /** The checks before a create request: name and manager id must be truthy,
      and the manager id must read as a positive number. */
  function CheckCreate(form: ProjectFields): (c: Checked)
    ensures c == Refused(NameAndManagerRequired) <==> form.projectName == "" || !Truthy(form.managerId)
    ensures c.Accepted? <==> form.projectName != "" && PositiveId(form.managerId)
    ensures c.Accepted? ==> c.managerId > 0 && NumberOf(form.managerId) == Some(c.managerId)
    ensures c.Refused? ==> c.notice in {NameAndManagerRequired, InvalidManagerId}
  {
    if form.projectName == "" || !Truthy(form.managerId) then Refused(NameAndManagerRequired)
    else
      var n := NumberOf(form.managerId);
      if n.None? || n.value <= 0 then Refused(InvalidManagerId) else Accepted(n.value)
  }

  function MakeCreateBody(form: ProjectFields, managerId: int): (b: CreateBody) {
    CreateBody(Trim(form.projectName), managerId, Given(form.startDate), Given(form.endDate))
  }

  /** The checks before an update: a project must be selected, and name and
      manager id must be truthy. The manager id is not range-checked. */
  function CheckUpdate(editing: Option<Project>, form: ProjectFields): (r: Option<ProjectNotice>)
    ensures r.None? <==> editing.Some? && form.projectName != "" && Truthy(form.managerId)
    ensures r.Some? ==> r.value == SelectAndFill
  {
    if editing.None? || form.projectName == "" || !Truthy(form.managerId) then Some(SelectAndFill) else None
  }

  function MakeUpdateBody(projectId: int, form: ProjectFields): (b: UpdateBody) {
    UpdateBody(projectId, form.projectName, Given(form.startDate), Given(form.endDate), NumberOf(form.managerId))
  }

  /** Only the create body trims the name; the update body sends it as typed.
      A name of blanks passes both checks, so create sends an empty name. */
  lemma {:induction false} NameTrimmedOnlyOnCreate(p: Project, form: ProjectFields)
    requires CheckCreate(form).Accepted?
    ensures var c := MakeCreateBody(form, CheckCreate(form).managerId);
      var u := MakeUpdateBody(p.projectId, form);
      CheckUpdate(Some(p), form).None?
      && c.projectName == Trim(u.projectName) && Trim(c.projectName) == c.projectName
      && (c.projectName == "" <==> AllSpace(form.projectName))
      && Some(c.managerId) == u.managerId && c.startDate == u.startDate && c.endDate == u.endDate
  {
    TrimSpec(form.projectName);
    TrimIdempotent(form.projectName);
  }

  /** The form the edit handler fills from a project. */
  function EditForm(p: Project): (form: ProjectFields) {
    ProjectFields(p.projectName, p.startDate, p.endDate,
                  if p.manager.Some? then Numeric(p.manager.value) else Typed(""))
  }

  /** Editing a project and saving it unchanged sends the project back as it
      was, unless its name is empty or it has no manager (or manager 0), which
      the update refuses. */
  lemma {:induction false} EditThenUpdate(p: Project)
    ensures CheckUpdate(Some(p), EditForm(p)).None? <==>
              p.projectName != "" && p.manager.Some? && p.manager.value != 0
    ensures p.manager.Some? ==>
              MakeUpdateBody(p.projectId, EditForm(p)) ==
              UpdateBody(p.projectId, p.projectName, Given(p.startDate), Given(p.endDate), p.manager)
  {
  }

  /** What the create handler shows for a rejected call: 403 first; then a 400
      or a body mentioning a missing manager; then a body mentioning a
      constraint; else the common fallback text. Searching an object body
      throws. */
  function CreateError(f: Failure, managerId: int): (o: Outcome<ProjectNotice>)
    ensures StatusOf(f) == Some(403) ==> o == Shown(CreateDenied)
    ensures StatusOf(f) == Some(400) ==> o == Shown(ManagerMissing(managerId))
    ensures o.Uncaught? <==> f.Rejected? && f.status !in {400, 403} && f.body.Record?
    ensures o == Shown(ManagerMissing(managerId)) <==>
              StatusOf(f) == Some(400) || (f.Rejected? && f.status != 403 && SearchBody(f.body, "Manager not found") == Found)
    ensures o == Shown(ConstraintError(managerId)) <==>
              f.Rejected? && f.status !in {400, 403} && SearchBody(f.body, "Manager not found") == Absent
              && SearchBody(f.body, "constraint") == Found
    ensures o.Shown? && o.notice.CreateFailed? ==> o.notice.text == "Error creating project: " + ErrorText(f)
  {
    if StatusOf(f) == Some(403) then Shown(CreateDenied)
    else if StatusOf(f) == Some(400) then Shown(ManagerMissing(managerId))
    else match f
      case Rejected(_, body) =>
        var missing := SearchBody(body, "Manager not found");
        if missing == Throws then Uncaught
        else if missing == Found then Shown(ManagerMissing(managerId))
        else if SearchBody(body, "constraint") == Found then Shown(ConstraintError(managerId))
        else Shown(CreateFailed("Error creating project: " + ErrorText(f)))
      case _ => Shown(CreateFailed("Error creating project: " + ErrorText(f)))
  }

  /** A body naming the missing manager wins over one naming a constraint,
      whatever the status except 403. */
  lemma {:induction false} ManagerBeforeConstraint(status: int, a: string, b: string, c: string, managerId: int)
    requires status != 403
    ensures CreateError(Rejected(status, Text(a + "constraint" + b + "Manager not found" + c)), managerId)
              == Shown(ManagerMissing(managerId))
  {
    IncludesInfix(a + "constraint" + b, "Manager not found", c);
  }

  function UpdateError(f: Failure): (n: ProjectNotice)
    ensures StatusOf(f) == Some(403) <==> n == UpdateDenied
    ensures StatusOf(f) != Some(403) ==> n == UpdateFailed("Error updating project: " + ErrorText(f))
  {
    if StatusOf(f) == Some(403) then UpdateDenied else UpdateFailed("Error updating project: " + ErrorText(f))
  }

  /** The screen's form state. */
  class ProjectScreen {
    var formData: ProjectFields
    var editing: Option<Project>

    constructor ()
      ensures formData == BlankForm && editing.None?
    {
      formData, editing := BlankForm, None;
    }

    /** `createProject`: a POST to `/add`. Success clears the form; the
        selection is not touched. */
    method Create(local: map<string, string>, session: map<string, string>, reply: Exchange<()>)
      returns (request: Option<Call<CreateBody>>, outcome: Outcome<ProjectNotice>)
      modifies this
      ensures !SignedIn(local, session) ==> request.None? && outcome == Shown(LoginRequired)
      ensures SignedIn(local, session) ==>
                var c := CheckCreate(old(formData));
                if c.Refused? then request.None? && outcome == Shown(c.notice)
                else request == Some(Call(Post, ProjectsPath + "/add", "Bearer " + Token(local, session).value,
                                          MakeCreateBody(old(formData), c.managerId)))
      ensures request.Some? && reply.Ok? ==> outcome == Shown(ProjectAdded) && formData == BlankForm
      ensures request.Some? && reply.Failed? ==>
                outcome == CreateError(reply.failure, CheckCreate(old(formData)).managerId)
      ensures !(request.Some? && reply.Ok?) ==> formData == old(formData)
      ensures editing == old(editing)
    {
      var ok := CheckAuth(local, session);
      if !ok {
        return None, Shown(LoginRequired);
      }
      var c := CheckCreate(formData);
      if c.Refused? {
        return None, Shown(c.notice);
      }
      var header := GetAuthHeaders(local, session);
      assert header.Some?;
      request := Some(Call(Post, ProjectsPath + "/add", header.value, MakeCreateBody(formData, c.managerId)));
      match reply {
        case Ok(_, _) =>
          outcome := Shown(ProjectAdded);
          formData := BlankForm;
        case Failed(failure) =>
          outcome := CreateError(failure, c.managerId);
      }
    }

    /** `updateProject`: a PUT to `/update` carrying the selected project's id.
        Success ends the edit and clears the form. */
    method Update(local: map<string, string>, session: map<string, string>, reply: Exchange<()>)
      returns (request: Option<Call<UpdateBody>>, notice: ProjectNotice)
      modifies this
      ensures !SignedIn(local, session) ==> request.None? && notice == LoginRequired
      ensures SignedIn(local, session) ==>
                var r := CheckUpdate(old(editing), old(formData));
                if r.Some? then request.None? && notice == r.value
                else request == Some(Call(Put, ProjectsPath + "/update", "Bearer " + Token(local, session).value,
                                          MakeUpdateBody(old(editing).value.projectId, old(formData))))
      ensures request.Some? && reply.Ok? ==> notice == ProjectUpdated && formData == BlankForm && editing.None?
      ensures request.Some? && reply.Failed? ==> notice == UpdateError(reply.failure)
      ensures !(request.Some? && reply.Ok?) ==> formData == old(formData) && editing == old(editing)
    {
      var ok := CheckAuth(local, session);
      if !ok {
        return None, LoginRequired;
      }
      var r := CheckUpdate(editing, formData);
      if r.Some? {
        return None, r.value;
      }
      var header := GetAuthHeaders(local, session);
      assert header.Some?;
      request := Some(Call(Put, ProjectsPath + "/update", header.value, MakeUpdateBody(editing.value.projectId, formData)));
      match reply {
        case Ok(_, _) =>
          notice := ProjectUpdated;
          editing := None;
          formData := BlankForm;
        case Failed(failure) =>
          notice := UpdateError(failure);
      }
    }

    /** `handleEdit`: selects the project and fills the form from it. */
    method HandleEdit(p: Project)
      modifies this
      ensures editing == Some(p) && formData == EditForm(p)
    {
      editing := Some(p);
      formData := EditForm(p);
    }

    /** `resetForm`: ends the edit, clears the four fields and says so. */
    method ResetForm() returns (notice: ProjectNotice)
      modifies this
      ensures notice == FormReset
      ensures editing.None? && formData == BlankForm
    {
      editing := None;
      formData := BlankForm;
      notice := FormReset;
    }
  }
}

=== FILE: quality.dfy ===
/** The tester's quality-metric screen: the create and update checks, the
    payloads, the error classification and the edit and reset transitions. */
module Quality {
  import opened Js
  import opened Http
  import opened Auth
  import opened Forms

  const QualitiesPath := "/api/qualities"

  /** A quality metric as the list shows it; a missing date is "". */
  datatype Metric = Metric(metricId: int, project: Option<int>, bugCount: int, resolvedCount: int,
                           qualityScore: int, calculatedDate: string)

  /** The form. The project id is typed text or the number the edit handler
      copies in; the other fields are always text. */
  datatype QualityFields = QualityFields(projectId: FormValue, bugCount: string, resolvedCount: string,
                                         qualityScore: string, calculatedDate: string)

  const BlankForm := QualityFields(Typed(""), "", "", "", "")

  /** The body of a create or update request. A number field that read as NaN
      is `None`, which the JSON body carries as null; the date is sent only
      when set. */
  datatype QualityPayload = QualityPayload(projectId: Option<int>, bugCount: Option<int>, resolvedCount: Option<int>,
                                           qualityScore: Option<int>, calculatedDate: Option<string>)

  datatype QualityNotice =
    | FormReset
    | LoginRequired
    | RequiredMissing
    | InvalidNumbers
    | SelectAndFill
    | QualityAdded
    | QualityUpdated
    | CreateDenied
    | ProjectMissing(projectId: int)
    | CreateFailed(text: string)
    | UpdateDenied
    | UpdateFailed(text: string)

  /** The four required fields are all truthy. */
  predicate Filled(form: QualityFields) {
    Truthy(form.projectId) && form.bugCount != "" && form.resolvedCount != "" && form.qualityScore != ""
  }

  /** The outcome of the create checks: refused with a notice, or accepted with
      the four numbers read from the form. */
  datatype Checked = Refused(notice: QualityNotice) | Accepted(projectId: int, bugCount: int, resolvedCount: int, qualityScore: int)

  /** The checks before a create request: the four required fields must be
      truthy; then the project id must read as a positive number and the
      counts and the score as numbers that are not negative. */
  function CheckCreate(form: QualityFields): (c: Checked)
    ensures c == Refused(RequiredMissing) <==> !Filled(form)
    ensures c.Accepted? <==>
              Filled(form) && PositiveId(form.projectId)
              && Number(form.bugCount).Some? && Number(form.bugCount).value >= 0
              && Number(form.resolvedCount).Some? && Number(form.resolvedCount).value >= 0
              && Number(form.qualityScore).Some? && Number(form.qualityScore).value >= 0
    ensures c.Accepted? ==>
              NumberOf(form.projectId) == Some(c.projectId) && Number(form.bugCount) == Some(c.bugCount)
              && Number(form.resolvedCount) == Some(c.resolvedCount) && Number(form.qualityScore) == Some(c.qualityScore)
    ensures c.Refused? ==> c.notice in {RequiredMissing, InvalidNumbers}
  {
    if !Filled(form) then Refused(RequiredMissing)
    else
      var p := NumberOf(form.projectId);
      var b := Number(form.bugCount);
      var r := Number(form.resolvedCount);
      var q := Number(form.qualityScore);
      if p.None? || p.value <= 0 || b.None? || b.value < 0 || r.None? || r.value < 0 || q.None? || q.value < 0
      then Refused(InvalidNumbers)
      else Accepted(p.value, b.value, r.value, q.value)
  }

  /** The create payload: the four checked numbers, and the date only when set. */
  function CreatePayload(c: Checked, calculatedDate: string): (p: QualityPayload)
    requires c.Accepted?
  {
    QualityPayload(Some(c.projectId), Some(c.bugCount), Some(c.resolvedCount), Some(c.qualityScore), Given(calculatedDate))
  }

  /** The checks before an update: a metric must be selected and the four
      required fields truthy. No range check is made. */
  function CheckUpdate(editing: Option<Metric>, form: QualityFields): (r: Option<QualityNotice>)
    ensures r.None? <==> editing.Some? && Filled(form)
    ensures r.Some? ==> r.value == SelectAndFill
  {
    if editing.None? || !Filled(form) then Some(SelectAndFill) else None
  }

  /** The update payload: each field read as a number as it stands. */
  function UpdatePayload(form: QualityFields): (p: QualityPayload)
  {
    QualityPayload(NumberOf(form.projectId), Number(form.bugCount), Number(form.resolvedCount),
                   Number(form.qualityScore), Given(form.calculatedDate))
  }

  /** Whatever the create checks accept, the update checks accept too, and both
      send the same body for it. */
  lemma {:induction false} UpdateAcceptsWhatCreateAccepts(m: Metric, form: QualityFields)
    requires CheckCreate(form).Accepted?
    ensures CheckUpdate(Some(m), form).None?
    ensures UpdatePayload(form) == CreatePayload(CheckCreate(form), form.calculatedDate)
  {
  }

  /** The converse fails: an update sends a negative project id and a count
      that is not a number (as null), which create refuses. */
  lemma UpdateSkipsRangeChecks(m: Metric)
    ensures var form := QualityFields(Typed("-1"), "x", "1", "1", "");
      CheckCreate(form) == Refused(InvalidNumbers) && CheckUpdate(Some(m), form).None?
      && UpdatePayload(form).projectId == Some(-1) && UpdatePayload(form).bugCount.None?
  {
    NumberOfDecimal(-1);
    assert Decimal(-1) == "-1";
    NotANumber();
  }

  lemma NotANumber()
    ensures Number("x").None?
  {
    TrimSpec("x");
    assert !AllSpace("x") by { assert !IsSpace("x"[0]); }
    assert Trim("x") == "x";
  }

  /** The form the edit handler fills from a metric: the project's id as a
      number, or "" when it has none; the counts and the score as their text;
      the date, or "". */
  function EditForm(m: Metric): (form: QualityFields)
  {
    QualityFields(if m.project.Some? then Numeric(m.project.value) else Typed(""),
                  Decimal(m.bugCount), Decimal(m.resolvedCount), Decimal(m.qualityScore), m.calculatedDate)
  }

  /** Editing a metric and saving it unchanged sends the metric's own values
      back, unless it has no project or project 0, which the update refuses. */
  lemma {:induction false} EditThenUpdate(m: Metric)
    ensures CheckUpdate(Some(m), EditForm(m)).None? <==> m.project.Some? && m.project.value != 0
    ensures m.project.Some? ==>
              UpdatePayload(EditForm(m)) ==
              QualityPayload(m.project, Some(m.bugCount), Some(m.resolvedCount), Some(m.qualityScore), Given(m.calculatedDate))
  {
    NumberOfDecimal(m.bugCount);
    NumberOfDecimal(m.resolvedCount);
    NumberOfDecimal(m.qualityScore);
  }

  /** What the create handler shows for a rejected call: 403 first; then a 400,
      or a body that mentions a missing project, names the project id; anything
      else gets the common fallback text. Searching an object body throws. */
  function CreateError(f: Failure, projectId: int): (o: Outcome<QualityNotice>)
    ensures StatusOf(f) == Some(403) ==> o == Shown(CreateDenied)
    ensures StatusOf(f) == Some(400) ==> o == Shown(ProjectMissing(projectId))
    ensures o.Uncaught? <==> f.Rejected? && f.status !in {400, 403} && f.body.Record?
    ensures o == Shown(ProjectMissing(projectId)) <==>
              StatusOf(f) == Some(400) || (f.Rejected? && f.status != 403 && SearchBody(f.body, "Project not found") == Found)
    ensures o.Shown? && o.notice.CreateFailed? ==> o.notice.text == "Error creating quality: " + ErrorText(f)
  {
    if StatusOf(f) == Some(403) then Shown(CreateDenied)
    else if StatusOf(f) == Some(400) then Shown(ProjectMissing(projectId))
    else match f
      case Rejected(_, body) =>
        var search := SearchBody(body, "Project not found");
        if search == Throws then Uncaught
        else if search == Found then Shown(ProjectMissing(projectId))
        else Shown(CreateFailed("Error creating quality: " + ErrorText(f)))
      case _ => Shown(CreateFailed("Error creating quality: " + ErrorText(f)))
  }

  /** A body that mentions the missing project is reported as such whatever its
      status, except 403. */
  lemma {:induction false} ProjectNotFoundAnyStatus(status: int, a: string, b: string, projectId: int)
    requires status != 403
    ensures CreateError(Rejected(status, Text(a + "Project not found" + b)), projectId) == Shown(ProjectMissing(projectId))
  {
    IncludesInfix(a, "Project not found", b);
  }

  /** What the update handler shows for a rejected call. */
  function UpdateError(f: Failure): (n: QualityNotice)
    ensures StatusOf(f) == Some(403) <==> n == UpdateDenied
    ensures StatusOf(f) != Some(403) ==> n == UpdateFailed("Error updating quality: " + ErrorText(f))
  {
    if StatusOf(f) == Some(403) then UpdateDenied else UpdateFailed("Error updating quality: " + ErrorText(f))
  }

  /** The screen's form state. */
  class QualityScreen {
    var formData: QualityFields
    var editing: Option<Metric>

    constructor ()
      ensures formData == BlankForm && editing.None?
    {
      formData, editing := BlankForm, None;
    }

    /** `createQuality`. `reply` is the outcome of the POST. Returns the request
        sent and how the handler ends. The selection is not touched. */
    method Create(local: map<string, string>, session: map<string, string>, reply: Exchange<()>)
      returns (request: Option<Call<QualityPayload>>, outcome: Outcome<QualityNotice>)
      modifies this
      ensures !SignedIn(local, session) ==> request.None? && outcome == Shown(LoginRequired)
      ensures SignedIn(local, session) ==>
                var c := CheckCreate(old(formData));
                if c.Refused? then request.None? && outcome == Shown(c.notice)
                else request == Some(Call(Post, QualitiesPath, "Bearer " + Token(local, session).value,
                                          CreatePayload(c, old(formData).calculatedDate)))
      ensures request.Some? && reply.Ok? ==> outcome == Shown(QualityAdded) && formData == BlankForm
      ensures request.Some? && reply.Failed? ==>
                outcome == CreateError(reply.failure, CheckCreate(old(formData)).projectId)
      ensures !(request.Some? && reply.Ok?) ==> formData == old(formData)
      ensures editing == old(editing)
    {
      var ok := CheckAuth(local, session);
      if !ok {
        return None, Shown(LoginRequired);
      }
      var c := CheckCreate(formData);
      if c.Refused? {
        return None, Shown(c.notice);
      }
      var header := GetAuthHeaders(local, session);
      assert header.Some?;
      request := Some(Call(Post, QualitiesPath, header.value, CreatePayload(c, formData.calculatedDate)));
      match reply {
        case Ok(_, _) =>
          outcome := Shown(QualityAdded);
          formData := BlankForm;
        case Failed(failure) =>
          outcome := CreateError(failure, c.projectId);
      }
    }

    /** `updateQuality`: a PUT to the selected metric's path. Success ends the
        edit and clears the form. */
    method Update(local: map<string, string>, session: map<string, string>, reply: Exchange<()>)
      returns (request: Option<Call<QualityPayload>>, notice: QualityNotice)
      modifies this
      ensures !SignedIn(local, session) ==> request.None? && notice == LoginRequired
      ensures SignedIn(local, session) ==>
                var r := CheckUpdate(old(editing), old(formData));
                if r.Some? then request.None? && notice == r.value
                else request == Some(Call(Put, QualitiesPath + "/" + Decimal(old(editing).value.metricId),
                                          "Bearer " + Token(local, session).value, UpdatePayload(old(formData))))
      ensures request.Some? && reply.Ok? ==> notice == QualityUpdated && formData == BlankForm && editing.None?
      ensures request.Some? && reply.Failed? ==> notice == UpdateError(reply.failure)
      ensures !(request.Some? && reply.Ok?) ==> formData == old(formData) && editing == old(editing)
    {
      var ok := CheckAuth(local, session);
      if !ok {
        return None, LoginRequired;
      }
      var r := CheckUpdate(editing, formData);
      if r.Some? {
        return None, r.value;
      }
      var header := GetAuthHeaders(local, session);
      assert header.Some?;
      request := Some(Call(Put, QualitiesPath + "/" + Decimal(editing.value.metricId), header.value, UpdatePayload(formData)));
      match reply {
        case Ok(_, _) =>
          notice := QualityUpdated;
          editing := None;
          formData := BlankForm;
        case Failed(failure) =>
          notice := UpdateError(failure);
      }
    }

    /** `handleEdit`: selects the metric and fills the form from it. */
    method HandleEdit(m: Metric)
      modifies this
      ensures editing == Some(m) && formData == EditForm(m)
    {
      editing := Some(m);
      formData := EditForm(m);
    }

    /** `resetForm`: ends the edit, clears the form and says so. */
    method ResetForm() returns (notice: QualityNotice)
      modifies this
      ensures notice == FormReset
      ensures editing.None? && formData == BlankForm
    {
      editing := None;
      formData := BlankForm;
      notice := FormReset;
    }
  }
}

=== FILE: register.dfy ===
/** The sign-up screen: the field checks, the normalised payload, the success
    statuses and the text shown when the call fails. */
module Register {
  import opened Js
  import opened Http
  import Login
  import Routes

  /** The body of the sign-up request. The password travels as typed, trimmed:
      nothing is hashed. */
  datatype Payload = Payload(username: string, email: string, passwordHash: string, role: string)

  datatype RegisterNotice = FillAllFields | EmptyPassword | Registered | RegistrationFailed | Problem(text: string)

  const NoBackend := "Backend not responding. Check if server is running."

  /** The checks made before anything is sent: every field must be non-empty,
      and the password must hold more than white space. */
  function Check(username: string, email: string, password: string, role: string): (r: Option<RegisterNotice>)
    ensures r == Some(FillAllFields) <==> username == "" || email == "" || password == "" || role == ""
    ensures r.Some? ==> r == Some(FillAllFields) || r == Some(EmptyPassword)
  {
    if username == "" || email == "" || password == "" || role == "" then Some(FillAllFields)
    else if Trim(password) == "" then Some(EmptyPassword)
    else None
  }

  /** With every field filled in, a password made only of white space is
      refused and any other passes. */
  lemma {:induction false} BlankPasswordRefused(username: string, email: string, password: string, role: string)
    requires username != "" && email != "" && role != "" && password != ""
    ensures Check(username, email, password, role) == Some(EmptyPassword) <==> AllSpace(password)
    ensures Check(username, email, password, role).None? <==> !AllSpace(password)
  {
    TrimSpec(password);
  }

  /** The payload built from the form. */
  function MakePayload(username: string, email: string, password: string, role: string): (p: Payload)
    ensures p.username == Trim(username) && p.email == Trim(email) && p.passwordHash == Trim(password)
    ensures p.role == "ROLE_" + role
  {
    Payload(Trim(username), Trim(email), Trim(password), "ROLE_" + role)
  }

  /** A payload that passed the checks carries a non-empty password with no
      white space at either end, and its text fields are already normalised:
      trimming them again changes nothing. */
  lemma {:induction false} PayloadNormalised(username: string, email: string, password: string, role: string)
    requires Check(username, email, password, role).None?
    ensures var p := MakePayload(username, email, password, role);
      p.passwordHash != "" && !IsSpace(p.passwordHash[0]) && !IsSpace(p.passwordHash[|p.passwordHash| - 1])
      && Trim(p.username) == p.username && Trim(p.email) == p.email && Trim(p.passwordHash) == p.passwordHash
  {
    TrimIdempotent(username);
    TrimIdempotent(email);
    TrimIdempotent(password);
    TrimSpec(password);
  }

  /** Each of the four roles the form offers becomes the claim that lands on
      that role's dashboard after signing in. */
  lemma {:induction false} RoleClaimRoutes(role: string)
    requires role in {"ADMIN", "DEVELOPER", "TESTER", "STAKEHOLDER"}
    ensures Routes.IsDashboard(Routes.Resolve(Login.LandingRoute(Some("ROLE_" + role))))
  {
    var claim := "ROLE_" + role;
    if role == "ADMIN" {
      assert claim == "ROLE_ADMIN";
    } else if role == "DEVELOPER" {
      assert claim == "ROLE_DEVELOPER";
    } else if role == "TESTER" {
      assert claim == "ROLE_TESTER";
    } else {
      assert claim == "ROLE_STAKEHOLDER";
    }
    Login.LandingIsRealPage(Some(claim));
    Routes.Dashboards();
  }

  /** Only the password is checked for white space: a user name of blanks passes
      the checks and is sent as the empty string. */
  lemma {:induction false} BlankUsernameSent(username: string, email: string, password: string, role: string)
    requires username != "" && AllSpace(username) && email != "" && role != ""
    requires password != "" && !AllSpace(password)
    ensures Check(username, email, password, role).None?
    ensures MakePayload(username, email, password, role).username == ""
  {
    TrimSpec(username);
    TrimSpec(password);
  }

  /** The text shown for a response body: a truthy `message` first, else a
      string as it is, else the body's JSON. */
  function BodyText(b: Body): (t: string)
    ensures HasMessage(b) ==> t == b.message.value
    ensures b.Text? ==> t == b.text
    ensures b.Record? && !HasMessage(b) ==> t == b.json
    ensures b.Null? ==> t == "null"
  {
    if HasMessage(b) then b.message.value
    else if b.Text? then b.text
    else if b.Record? then b.json
    else "null"
  }

  /** The two screens test the body in opposite orders, yet show the same text
      for every body: a string has no `message`, and an object is not a string.
      They differ only in the words used when no response arrives. */
  lemma {:induction false} ChainsAgree(f: Failure)
    ensures f.Rejected? ==> FailureText(f) == Login.FailureText(f)
    ensures f.Thrown? ==> FailureText(f) == Login.FailureText(f)
    ensures f.NoResponse? ==> FailureText(f) != Login.FailureText(f)
  {
    if f.Rejected? {
      match f.body
      case Text(_) =>
      case Record(_, _) =>
      case Null =>
    }
    if f.NoResponse? {
      assert NoBackend[30] != Login.NoBackend[30];
    }
  }

  /** The text shown when the sign-up call rejects. */
  function FailureText(f: Failure): (t: string)
    ensures f.Rejected? ==> t == BodyText(f.body)
    ensures f.NoResponse? ==> t == NoBackend
    ensures f.Thrown? ==> t == f.message
  {
    match f
    case Rejected(_, body) => BodyText(body)
    case NoResponse => NoBackend
    case Thrown(message) => message
  }

  /** Only 201 and 200 count as a successful sign-up. */
  predicate Succeeded(status: int) {
    status == 201 || status == 200
  }

  /** The sign-up form's state. */
  class RegisterForm {
    var username: string
    var email: string
    var password: string
    var role: string
    var loading: bool

    constructor ()
      ensures username == "" && email == "" && password == "" && role == "" && !loading
    {
      username, email, password, role := "", "", "", "";
      loading := false;
    }

    predicate Cleared()
      reads this
    {
      username == "" && email == "" && password == "" && role == ""
    }

    /** `handleRegister`. `reply` is the outcome the sign-up call settles with.
        Returns the payload sent (none when a check fails), the notice shown and
        the route navigated to. Browser storage is not touched. */
    method HandleRegister(reply: Exchange<()>)
      returns (request: Option<Payload>, notice: RegisterNotice, route: Option<string>)
      modifies this
      ensures var c := Check(old(username), old(email), old(password), old(role));
        if c.Some? then
          request.None? && notice == c.value && route.None?
          && username == old(username) && email == old(email) && password == old(password)
          && role == old(role) && loading == old(loading)
        else
          request == Some(MakePayload(old(username), old(email), old(password), old(role))) && !loading
      ensures request.Some? && reply.Ok? && Succeeded(reply.status) ==>
                Cleared() && notice == Registered && route == Some("/login")
      ensures route.Some? ==> Routes.Resolve(route.value) == Routes.Login
      ensures request.Some? && !(reply.Ok? && Succeeded(reply.status)) ==>
                username == old(username) && email == old(email) && password == old(password)
                && role == old(role) && route.None?
                && notice == (if reply.Ok? then RegistrationFailed else Problem(FailureText(reply.failure)))
    {
      var c := Check(username, email, password, role);
      if c.Some? {
        return None, c.value, None;
      }
      loading := true;
      request := Some(MakePayload(username, email, password, role));
      route := None;
      match reply {
        case Failed(failure) =>
          notice := Problem(FailureText(failure));
        case Ok(status, _) =>
          if Succeeded(status) {
            notice := Registered;
            username, email, password, role := "", "", "", "";
            route := Some("/login");
            assert Routes.Resolve("/login") == Routes.Login;
          } else {
            notice := RegistrationFailed;
          }
      }
      loading := false;
    }
  }
}

=== FILE: routes.dfy ===
/** The application's `<Routes>` table: static paths, each rendering one page,
    and a catch-all `*` entry that renders the not-found page. */
module Routes {
  import opened Js

  datatype Page =
    | Home | Login | Register
    | AdminDashboard | User | ABug | ABugAttachment | AProject | AQuality | ANotification | Report
    | DNotification | DeveloperDashboard | DBug | DBugAttachment | DQuality | DAnalytics
    | TesterDashboard | TBug | TBugAttachment | TQuality | TNotification | TAnalytics
    | StakeholderDashboard | SBug | SProject | SQuality | SNotification | SAnalytics
    | NotFoundPage

  /** The page the router renders for `path`: the explicit routes in
      declaration order, then `*`. Matching is on the exact path text. */
  function Resolve(path: string): (page: Page)
    ensures path == "" ==> page == NotFoundPage
  {
    match path
    case "/" => Home
    case "/login" => Login
    case "/register" => Register
    case "/admin" => AdminDashboard
    case "/users" => User
    case "/bugs" => ABug
    case "/bug-attachments" => ABugAttachment
    case "/projects" => AProject
    case "/quality" => AQuality
    case "/notifications" => ANotification
    case "/reporting" => Report
    case "/notify" => DNotification
    case "/developer" => DeveloperDashboard
    case "/bugd" => DBug
    case "/attach" => DBugAttachment
    case "/metric" => DQuality
    case "/reports" => DAnalytics
    case "/tester" => TesterDashboard
    case "/bugt" => TBug
    case "/tattach" => TBugAttachment
    case "/tmetric" => TQuality
    case "/tnotify" => TNotification
    case "/reported" => TAnalytics
    case "/stakeholder" => StakeholderDashboard
    case "/bugstack" => SBug
    case "/projectstack" => SProject
    case "/qualitystack" => SQuality
    case "/notification" => SNotification
    case "/reportingstack" => SAnalytics
    case _ => NotFoundPage
  }

  /** The path under which a page is declared; the catch-all page has none. */
  function PathOf(page: Page): (path: Option<string>)
    ensures path.None? <==> page == NotFoundPage
    ensures path.Some? ==> path.value != "" && path.value[0] == '/'
  {
    match page
    case Home => Some("/")
    case Login => Some("/login")
    case Register => Some("/register")
    case AdminDashboard => Some("/admin")
    case User => Some("/users")
    case ABug => Some("/bugs")
    case ABugAttachment => Some("/bug-attachments")
    case AProject => Some("/projects")
    case AQuality => Some("/quality")
    case ANotification => Some("/notifications")
    case Report => Some("/reporting")
    case DNotification => Some("/notify")
    case DeveloperDashboard => Some("/developer")
    case DBug => Some("/bugd")
    case DBugAttachment => Some("/attach")
    case DQuality => Some("/metric")
    case DAnalytics => Some("/reports")
    case TesterDashboard => Some("/tester")
    case TBug => Some("/bugt")
    case TBugAttachment => Some("/tattach")
    case TQuality => Some("/tmetric")
    case TNotification => Some("/tnotify")
    case TAnalytics => Some("/reported")
    case StakeholderDashboard => Some("/stakeholder")
    case SBug => Some("/bugstack")
    case SProject => Some("/projectstack")
    case SQuality => Some("/qualitystack")
    case SNotification => Some("/notification")
    case SAnalytics => Some("/reportingstack")
    case NotFoundPage => None
  }

  /** Every page other than the not-found page is reachable through the path it
      is declared under. */
  lemma EveryPageRoutable(page: Page)
    ensures page != NotFoundPage ==> Resolve(PathOf(page).value) == page
  {
  }

  /** A path that reaches an explicit route is the path that route declares:
      no path is declared twice, and no page is declared under two paths. */
  lemma DeclaredOnce(path: string)
    ensures Resolve(path) != NotFoundPage ==> PathOf(Resolve(path)) == Some(path)
  {
  }

  /** All explicit route paths are distinct: two different paths never reach the
      same explicit page. */
  lemma {:induction false} PathsDistinct(p: string, q: string)
    requires p != q
    ensures Resolve(p) == Resolve(q) ==> Resolve(p) == NotFoundPage
  {
    DeclaredOnce(p);
    DeclaredOnce(q);
  }

  /** The catch-all: a path reaches the not-found page exactly when no page is
      declared under it. */
  lemma {:induction false} Fallback(path: string)
    ensures Resolve(path) == NotFoundPage <==> forall page :: PathOf(page) != Some(path)
  {
    DeclaredOnce(path);
    forall page | PathOf(page) == Some(path)
      ensures Resolve(path) != NotFoundPage
    {
      EveryPageRoutable(page);
    }
  }

  /** The entry pages, and the two notification paths that differ by one letter
      yet reach different screens. */
  lemma EntryPages()
    ensures Resolve("/") == Home && Resolve("/login") == Login && Resolve("/register") == Register
    ensures Resolve("/notifications") == ANotification && Resolve("/notification") == SNotification
  {
  }

  predicate IsDashboard(page: Page) {
    page == AdminDashboard || page == DeveloperDashboard || page == TesterDashboard || page == StakeholderDashboard
  }

  /** The four role areas reach their dashboards. */
  lemma Dashboards()
    ensures Resolve("/admin") == AdminDashboard && Resolve("/developer") == DeveloperDashboard
    ensures Resolve("/tester") == TesterDashboard && Resolve("/stakeholder") == StakeholderDashboard
    ensures forall page :: IsDashboard(page) ==> Resolve(PathOf(page).value) == page
  {
  }
}

=== FILE: users.dfy ===
/** The admin's user screen: the create and update checks, the edit and reset
    transitions and the role the form falls back to. */
module Users {
  import opened Js
  import opened Http
  import opened Auth
  import Login
  import Routes

  const UsersPath := "/api/users"

  /** A user as the list shows it. */
  datatype Account = Account(userId: int, username: string, email: string, role: string)

  datatype UserFields = UserFields(username: string, email: string, role: string, password: string)

  /** The body of a create or update request: the four fields as they stand. */
  datatype UserBody = UserBody(username: string, email: string, role: string, password: string)

  /** The roles the form's select offers. */
  const RoleOptions: seq<string> := ["ROLE_ADMIN", "ROLE_DEVELOPER", "ROLE_TESTER", "ROLE_STAKEHOLDER"]

  /** The form when the screen opens. */
  const InitialForm := UserFields("", "", "ROLE_ADMIN", "")

  /** The form after a successful save or a reset. */
  const ClearedForm := UserFields("", "", "ROLE_USER", "")

  datatype UserNotice =
    | FormReset
    | LoginRequired
    | FieldsRequired
    | SelectAndFill
    | UserAdded
    | UserUpdated
    | CreateDenied
    | CreateFailed(text: string)
    | UpdateDenied
    | UpdateFailed(text: string)

  /** The create checks: user name, email and password must be set. */
  function CheckCreate(form: UserFields): (r: Option<UserNotice>)
    ensures r.None? <==> form.username != "" && form.email != "" && form.password != ""
    ensures r.Some? ==> r.value == FieldsRequired
  {
    if form.username == "" || form.email == "" || form.password == "" then Some(FieldsRequired) else None
  }

  /** The update checks: a user must be selected, and user name and email set;
      the password may be empty. */
  function CheckUpdate(editing: Option<Account>, form: UserFields): (r: Option<UserNotice>)
    ensures r.None? <==> editing.Some? && form.username != "" && form.email != ""
    ensures r.Some? ==> r.value == SelectAndFill
  {
    if editing.None? || form.username == "" || form.email == "" then Some(SelectAndFill) else None
  }

  function RequestBody(form: UserFields): UserBody {
    UserBody(form.username, form.email, form.role, form.password)
  }

  /** The form the edit handler fills from a user: the password is blanked. */
  function EditForm(u: Account): (form: UserFields) {
    UserFields(u.username, u.email, u.role, "")
  }

  /** Editing a user fills a form the create checks refuse (it has no password)
      but the update checks accept whenever the user has a name and an email;
      saving it unchanged sends the user back with an empty password. */
  lemma {:induction false} EditThenSave(u: Account)
    ensures CheckCreate(EditForm(u)) == Some(FieldsRequired)
    ensures CheckUpdate(Some(u), EditForm(u)).None? <==> u.username != "" && u.email != ""
    ensures RequestBody(EditForm(u)) == UserBody(u.username, u.email, u.role, "")
  {
  }

  /** Whatever the create checks accept, the update checks accept once a user
      is selected. */
  lemma {:induction false} UpdateAcceptsWhatCreateAccepts(u: Account, form: UserFields)
    requires CheckCreate(form).None?
    ensures CheckUpdate(Some(u), form).None?
  {
  }

  /** After a save or a reset the form holds "ROLE_USER", a role the select
      does not offer, while it opens on "ROLE_ADMIN", which it does. A user
      created from the cleared form without touching the select gets that
      role, and signing in with it lands on the home page. */
  lemma ClearedRoleNotOffered()
    ensures ClearedForm.role !in RoleOptions && InitialForm.role in RoleOptions
    ensures Login.LandingRoute(Some(ClearedForm.role)) == "/"
    ensures Routes.Resolve(Login.LandingRoute(Some(ClearedForm.role))) == Routes.Home
  {
    assert ClearedForm.role != RoleOptions[0];
    Login.LandingIsRealPage(Some(ClearedForm.role));
  }

  function CreateError(f: Failure): (n: UserNotice)
    ensures StatusOf(f) == Some(403) <==> n == CreateDenied
    ensures StatusOf(f) != Some(403) ==> n == CreateFailed("Error creating user: " + ErrorText(f))
  {
    if StatusOf(f) == Some(403) then CreateDenied else CreateFailed("Error creating user: " + ErrorText(f))
  }

  function UpdateError(f: Failure): (n: UserNotice)
    ensures StatusOf(f) == Some(403) <==> n == UpdateDenied
    ensures StatusOf(f) != Some(403) ==> n == UpdateFailed("Error updating user: " + ErrorText(f))
  {
    if StatusOf(f) == Some(403) then UpdateDenied else UpdateFailed("Error updating user: " + ErrorText(f))
  }

  /** The screen's form state. */
  class UserScreen {
    var formData: UserFields
    var editing: Option<Account>

    constructor ()
      ensures formData == InitialForm && editing.None?
    {
      formData, editing := InitialForm, None;
    }

    /** `createUser`: a POST of the four fields. Success clears the form to the
        "ROLE_USER" default; the selection is not touched. */
    method Create(local: map<string, string>, session: map<string, string>, reply: Exchange<()>)
      returns (request: Option<Call<UserBody>>, notice: UserNotice)
      modifies this
      ensures !SignedIn(local, session) ==> request.None? && notice == LoginRequired
      ensures SignedIn(local, session) ==>
                var r := CheckCreate(old(formData));
                if r.Some? then request.None? && notice == r.value
                else request == Some(Call(Post, UsersPath, "Bearer " + Token(local, session).value, RequestBody(old(formData))))
      ensures request.Some? && reply.Ok? ==> notice == UserAdded && formData == ClearedForm
      ensures request.Some? && reply.Failed? ==> notice == CreateError(reply.failure)
      ensures !(request.Some? && reply.Ok?) ==> formData == old(formData)
      ensures editing == old(editing)
    {
      var ok := CheckAuth(local, session);
      if !ok {
        return None, LoginRequired;
      }
      var r := CheckCreate(formData);
      if r.Some? {
        return None, r.value;
      }
      var header := GetAuthHeaders(local, session);
      assert header.Some?;
      request := Some(Call(Post, UsersPath, header.value, RequestBody(formData)));
      match reply {
        case Ok(_, _) =>
          notice := UserAdded;
          formData := ClearedForm;
        case Failed(failure) =>
          notice := CreateError(failure);
      }
    }

    /** `updateUser`: a PUT to the selected user's path. Success ends the edit
        and clears the form. */
    method Update(local: map<string, string>, session: map<string, string>, reply: Exchange<()>)
      returns (request: Option<Call<UserBody>>, notice: UserNotice)
      modifies this
      ensures !SignedIn(local, session) ==> request.None? && notice == LoginRequired
      ensures SignedIn(local, session) ==>
                var r := CheckUpdate(old(editing), old(formData));
                if r.Some? then request.None? && notice == r.value
                else request == Some(Call(Put, UsersPath + "/" + Decimal(old(editing).value.userId),
                                          "Bearer " + Token(local, session).value, RequestBody(old(formData))))
      ensures request.Some? && reply.Ok? ==> notice == UserUpdated && formData == ClearedForm && editing.None?
      ensures request.Some? && reply.Failed? ==> notice == UpdateError(reply.failure)
      ensures !(request.Some? && reply.Ok?) ==> formData == old(formData) && editing == old(editing)
    {
      var ok := CheckAuth(local, session);
      if !ok {
        return None, LoginRequired;
      }
      var r := CheckUpdate(editing, formData);
      if r.Some? {
        return None, r.value;
      }
      var header := GetAuthHeaders(local, session);
      assert header.Some?;
      request := Some(Call(Put, UsersPath + "/" + Decimal(editing.value.userId), header.value, RequestBody(formData)));
      match reply {
        case Ok(_, _) =>
          notice := UserUpdated;
          editing := None;
          formData := ClearedForm;
        case Failed(failure) =>
          notice := UpdateError(failure);
      }
    }

    /** `handleEdit`: selects the user and fills the form from it. */
    method HandleEdit(u: Account)
      modifies this
      ensures editing == Some(u) && formData == EditForm(u)
    {
      editing := Some(u);
      formData := EditForm(u);
    }

    /** `resetForm`: ends the edit, clears the form to the "ROLE_USER"
        default and says so. */
    method ResetForm() returns (notice: UserNotice)
      modifies this
      ensures notice == FormReset
      ensures editing.None? && formData == ClearedForm
    {
      editing := None;
      formData := ClearedForm;
      notice := FormReset;
    }
  }
}
